=== FILE: README.md ===
# Mrunal Notes Companion — a verified model of its core

The companion lets a student upload study PDFs in four categories: main notes, previous-year questions, NCERT basics and current affairs. It asks a language model for the chapter list of the main notes and builds a reading guide for a chosen chapter. The guide can be extended with live web links and a flowchart, and is rendered with a small markdown renderer. This project models three parts of it in Dafny and proves what they promise:

- **the orchestration service** (`gemini_service.dfy`, `retry.dfy`, `strings.dfy`):
  - the retry wrapper with exponential backoff;
  - assembly of the extraction and synthesis requests;
  - post-processing of the four backend calls: extraction, synthesis, web links and diagram, including their fallbacks.
- **the session controller** (`session.dfy`): the page's state as a class, the handlers as methods, and the button gates as predicates.
- **the markdown renderer** (`markdown.dfy`): lines, block classification and the regular-expression split of inline text.

`types.dfy` holds the document categories, files, topics, views and the two constant tables.

The backend is a parameter of type `nat -> Outcome<Response>`: the outcome of each successive call of one request. JSON parsing is a parameter `string -> Option<seq<Topic>>`. An API key of `""` is a missing key. Each async handler is split at its `await`: `Begin…` covers the updates before the call, `Complete…` the updates after it, and the method named after the handler runs both around the service call.

Behaviour of the code a reader may not expect:

- **Extraction parse failure.** When parsing the extraction reply fails, the failure is rethrown under the fixed extraction message. It is not turned into an empty topic list (`services/geminiService.ts:103-108`).
- **No stale-response guard.** `onTopicSelect` stores whatever the synthesis returns, whichever topic is selected by then (`App.tsx:67-83`).
- **No validation of topics.** Topics are not checked in any way.
- **No de-duplication of citations.** Web citations are listed once per grounding chunk, duplicates included.
- **Missing key during topic selection.** Selecting a topic with a missing key shows the load-error text, because `onTopicSelect` catches the thrown error (`App.tsx:78-79`).
- **Falsy values.** A topic id of `""` counts as no selection (`!selectedTopicId`). A diagram of `""` counts as no diagram (`!diagramContent`). An empty but present grounding-chunk list still adds the citations header (`if (groundingChunks)`).

The inline split follows JavaScript's `split` with a capturing regular expression:
- at each position, the alternatives are tried in the order `==…==`, `**…**`, `*…*`, `[…](…)`;
- the leftmost match wins;
- the lazy `.*?` takes the shortest run that closes the match;
- `.` never crosses LF, CR, U+2028 or U+2029.

A consequence the model makes explicit is that a lone `*` (or `==`) passes the italic (highlight) test on both ends and is shown as empty emphasis (`Markdown.LoneAsteriskVanishes`).

## Model

| member | source | states |
|---|---|---|
| Types.OfType | services/geminiService.ts:121-124 | `files.filter(f => f.type === t)`: exactly the files of that category, none added |
| Types.OfTypeConcat | App.tsx:39 | filtering distributes over concatenation, so per-category order follows upload order |
| Types.OfTypeEmpty | App.tsx:46-52 | the filtered list is empty iff no file has that category |
| Strings.Contains | services/geminiService.ts:21-26 | definition: `includes`, some position of the string starts with the pattern |
| Strings.IndexOfFrom | components/MarkdownRenderer.tsx:8-14 | `indexOf`: the first occurrence at or after k, and none before it; None iff no occurrence |
| Strings.ReplaceFirst | components/MarkdownRenderer.tsx:8-14 | `replace(p, '')` with a string pattern: unchanged when p does not occur; otherwise exactly one occurrence of p is cut out and the rest kept |
| Strings.ReplaceFirstPrefix | components/MarkdownRenderer.tsx:8-14 | `replace(p, '')` on a string starting with p removes exactly that prefix |
| Strings.RemoveAll | services/geminiService.ts:266 | `replace(/p/g, '')`: never longer than the input |
| Strings.RemoveAllOnlyDeletes | services/geminiService.ts:266 | global removal only deletes characters: the result's multiset is within the input's |
| Strings.TrimStart | components/MarkdownRenderer.tsx:13 | the result is a suffix, starts with a non-space, and only white space was dropped |
| Strings.TrimEnd | components/MarkdownRenderer.tsx:13 | the result is a prefix, ends with a non-space, and only white space was dropped |
| Strings.Trim | components/MarkdownRenderer.tsx:13-17 | definition: `trim()` as TrimEnd after TrimStart; its shape is stated by TrimIsInnerSlice |
| Strings.TrimIsInnerSlice | components/MarkdownRenderer.tsx:17 | `trim()` returns a slice of the input with no white space at either end |
| Strings.SliceInner | components/MarkdownRenderer.tsx:53 | `slice(k, -k)`: the middle when the string is long enough, else "" |
| Strings.NatToString | services/geminiService.ts:65 | a decimal rendering is non-empty and all digits |
| Strings.DigitChar | services/geminiService.ts:65 | the character of digit d is the one whose distance from '0' is d |
| Strings.NatToStringValue | services/geminiService.ts:65 | the rendering of n denotes n (read back digit by digit) and has no leading zero unless n is 0 |
| Strings.RemoveFencesLeavesNone | services/geminiService.ts:266 | removing every "```" leaves no "```": each run of n backticks keeps n mod 3 |
| Strings.TrimKeepsNoFence | services/geminiService.ts:266 | the final `trim()` cannot create a fence |
| Retry.IsRetryable | services/geminiService.ts:21-27 | definition: status 503, or a non-empty message containing "503", "Socket read failure" or "UNAVAILABLE" |
| Retry.RetryFrom | services/geminiService.ts:12-36 | definition: the recursion on the remaining budget, doubling the delay; characterised by RetryFromCharacterised |
| Retry.RetryOperation | services/geminiService.ts:12-16 | definition: the wrapper with its defaults applied from the first attempt; characterised by RetryCharacterised |
| Retry.RetryFromCharacterised | services/geminiService.ts:12-36 | from attempt k: calls until the first non-retryable outcome or until the budget is spent, returns that outcome, waits delay·2^j before retry j |
| Retry.RetryCharacterised | services/geminiService.ts:12-36 | the same from the first attempt: 1 to retries+1 calls, every earlier call failed retryably, waits delay, 2·delay, 4·delay, … |
| Retry.FirstSuccessReturned | services/geminiService.ts:17-18 | the first success within the budget is returned, after one wait per earlier failure |
| Retry.ExhaustedAfterRetriesPlusOne | services/geminiService.ts:28-34 | when every call fails retryably there are exactly retries+1 calls and the last error is thrown |
| Retry.FatalFailureRethrown | services/geminiService.ts:20-34 | a non-retryable error is thrown unchanged at once, with no wait |
| Retry.DefaultScheduleExample | services/geminiService.ts:14-15 | with the defaults, two 503s then a success wait 2000 then 4000 ms, in 3 calls |
| GeminiService.ExtractionLabel | services/geminiService.ts:65 | definition: the caption of the i-th main file carries the number i + 1 (see NatToStringValue) and the file name |
| GeminiService.BuildExtractionParts | services/geminiService.ts:62-72 | the prompt, then for each main file i a "Main Note Document i+1: name" caption and its inline data: 1 + 2·n parts |
| GeminiService.ExtractionResult | services/geminiService.ts:102-108 | empty text gives []; a failed call or failed parse gives the fixed extraction error; otherwise the parsed topics |
| GeminiService.ExtractionReply | services/geminiService.ts:41-110 | a missing key rejects with "API Key is missing"; every other rejection has the fixed extraction message |
| GeminiService.ExtractChaptersFromNotes | services/geminiService.ts:41-110 | no request without a key; with one, the request has the extraction layout and the result is the reply |
| GeminiService.CategoryLabel | services/geminiService.ts:173-176 | definition: the caption each category's files are added under |
| GeminiService.FileParts | services/geminiService.ts:166-171 | definition: a caption and an inline-data part per file, in list order; AddFiles is proved to build it |
| GeminiService.LabelledParts | services/geminiService.ts:166-176 | definition: the same, each file captioned by its own category; see LabelledPartsAt and LabelledPartsLength |
| GeminiService.SynthesisParts | services/geminiService.ts:121-176 | definition: the prompt, then the main, PYQ, NCERT and current-affairs groups; see SynthesisLayout |
| GeminiService.Grouped | services/geminiService.ts:121-124 | definition: the files reordered by category in the order they are added; see GroupedIsPermutation |
| GeminiService.AddFiles | services/geminiService.ts:166-171 | pushes a caption and the data for every file of the list, in order, after the existing parts |
| GeminiService.BuildSynthesisParts | services/geminiService.ts:121-176 | the prompt, then the main, PYQ, NCERT and current-affairs files, each group under its caption |
| GeminiService.FilePartsOfOneCategory | services/geminiService.ts:173-176 | a group's caption is its files' own category caption |
| GeminiService.LabelledPartsConcat | services/geminiService.ts:173-176 | the groups' parts concatenate like the groups |
| GeminiService.LabelledPartsLength | services/geminiService.ts:166-171 | two parts per file |
| GeminiService.LabelledPartsAt | services/geminiService.ts:168-169 | file i is captioned by part 2i (naming category and file) and carried by part 2i+1 |
| GeminiService.GroupedStep | services/geminiService.ts:121-124 | the first file lands in exactly one of the four category groups |
| GeminiService.GroupedIsPermutation | services/geminiService.ts:121-124 | the grouped files are a permutation of the uploaded files: each is attached exactly once |
| GeminiService.GroupedParts | services/geminiService.ts:173-176 | the four caption groups read as one list labelled by category, in grouped order |
| GeminiService.SynthesisLayout | services/geminiService.ts:121-176 | the request is the prompt plus every file labelled by its category, grouped in category order: 1 + 2·n parts |
| GeminiService.SynthesisResult | services/geminiService.ts:186-191 | the response text when non-empty, else "No content generated.", and the error stub on failure; never empty |
| GeminiService.SynthesisReply | services/geminiService.ts:115-192 | only a missing key rejects; every resolved guide is non-empty |
| GeminiService.SynthesizeTopic | services/geminiService.ts:115-192 | no request without a key; with one, the request is the synthesis layout and the result is the reply |
| GeminiService.Cited | services/geminiService.ts:222-226 | exactly the chunks that have both a URI and a title |
| GeminiService.CitedConcat | services/geminiService.ts:222-226 | citation filtering keeps chunk order |
| GeminiService.CitationStep | services/geminiService.ts:223-225 | one more chunk adds its "- [title](uri)" line exactly when it has both fields |
| GeminiService.CitationList | services/geminiService.ts:222-226 | definition: one "- [title](uri)" line per chunk, in order; see CitationStep |
| GeminiService.WebLinksBlock | services/geminiService.ts:216-229 | definition: header, response text, then the citations section when a chunk list is present; see WebLinksBlockShape |
| GeminiService.ComposeWebLinks | services/geminiService.ts:216-229 | the accumulated output is header + text, then citations header and lines only when chunks exist |
| GeminiService.HeaderHasMarker | services/geminiService.ts:216 | the web header contains "Live Web Resources" |
| GeminiService.WebLinksBlockShape | services/geminiService.ts:216-227 | a successful block starts with header + text and contains the marker; without chunks it is just header + text |
| GeminiService.NoFirstLetterNoMarker | services/geminiService.ts:216-232 | Proof step: a text without an 'L' never contains the marker |
| GeminiService.WebFailureNoticeHasNoMarker | services/geminiService.ts:232 | the failure notice does not contain the marker |
| GeminiService.WebLinksResult | services/geminiService.ts:208-233 | a success starts with header + text; a failure is the notice |
| GeminiService.WebLinksReply | services/geminiService.ts:197-234 | only a missing key rejects; after a successful call the text carries the marker, after a failed one it is the notice |
| GeminiService.FindWebLinks | services/geminiService.ts:197-234 | no request without a key; with one, a single prompt part, and the result is the reply |
| GeminiService.CleanDiagram | services/geminiService.ts:264-266 | the cleaned diagram contains no "```" |
| GeminiService.RemoveAllSkipsPrefix | services/geminiService.ts:266 | removal leaves alone a prefix that holds no occurrence of the pattern's first character |
| GeminiService.RemoveAllAtPrefix | services/geminiService.ts:266 | an occurrence at the front is removed and removal continues after it |
| GeminiService.FencedUntrimmed | services/geminiService.ts:264 | the first trim leaves a fenced block alone |
| GeminiService.FencesRemoved | services/geminiService.ts:266 | removing "```mermaid" then "```" from a fenced block leaves its body |
| GeminiService.CleanFencedDiagram | services/geminiService.ts:264-266 | a body wrapped in a mermaid fence comes back trimmed, e.g. "```mermaid\ngraph TD\nA-->B\n```" gives "graph TD\nA-->B" |
| GeminiService.DiagramResult | services/geminiService.ts:258-271 | failure gives "NO_DIAGRAM"; success gives a fence-free text |
| GeminiService.DiagramReply | services/geminiService.ts:239-272 | only a missing key rejects; the result is the sentinel or fence-free |
| GeminiService.GenerateDiagram | services/geminiService.ts:239-272 | no request without a key; with one, a single prompt part, and the result is the reply |
| Markdown.FindClose | components/MarkdownRenderer.tsx:28 | a lazy `.*?d` stops at the first d with no line terminator before it; None iff there is no such d |
| Markdown.MatchDelimited | components/MarkdownRenderer.tsx:28 | `d.*?d` at q matches iff the text starts with d there and a closing d follows; the match starts and ends with d and ends just after the first closing d |
| Markdown.DelimitedRecognised | components/MarkdownRenderer.tsx:28 | d, a run free of d's first character and of terminators, then d, is matched exactly up to the second d |
| Markdown.MatchLink | components/MarkdownRenderer.tsx:28 | `[.*?](.*?)` at q: the match starts with '[', ends with ')', holds "](" and no terminator |
| Markdown.MatchLinkEnds | components/MarkdownRenderer.tsx:28 | the link alternative fails iff there is no '[' at q, no first "](" after it or no first ')' after that; otherwise it ends just after that first ')' |
| Markdown.LinkRecognised | components/MarkdownRenderer.tsx:28 | "[" + a + "](" + b + ")" with no ']' in a, no ')' in b and no terminators is matched exactly |
| Markdown.LinkTokenShape | components/MarkdownRenderer.tsx:28 | the pieces of a link match assemble into a terminator-free token |
| Markdown.DelimitedIsToken | components/MarkdownRenderer.tsx:28 | a highlight, bold or italic match has the token shape |
| Markdown.LinkIsToken | components/MarkdownRenderer.tsx:28 | a link match has the token shape |
| Markdown.MatchAt | components/MarkdownRenderer.tsx:28 | definition: the regex alternatives tried in source order at one position; see MatchAtShape |
| Markdown.MatchAtShape | components/MarkdownRenderer.tsx:28 | the alternation never matches the empty string, starts only at '=', '*' or '[', and yields a token |
| Markdown.MarkupRecognised | components/MarkdownRenderer.tsx:28 | "==x==", "**x**" and (x non-empty) "*x*", with x free of the delimiter character and of terminators, are matched exactly at the start of a text |
| Markdown.LinkAtStartRecognised | components/MarkdownRenderer.tsx:28 | a well-formed link at the start of a text is matched exactly by the whole pattern |
| Markdown.FirstMatch | components/MarkdownRenderer.tsx:28-30 | a position at or after q where the pattern has a non-empty match inside the text; see FirstMatchLeftmost |
| Markdown.FirstMatchLeftmost | components/MarkdownRenderer.tsx:28-30 | FirstMatch is the leftmost match: no position before it matches, and when there is none no position matches at all |
| Markdown.SplitFrom | components/MarkdownRenderer.tsx:30 | the split pieces rejoin to the text, number an odd count, and every odd piece has the token shape |
| Markdown.SplitFromCuts | components/MarkdownRenderer.tsx:28-30 | the first piece runs to the leftmost match (or the end of the text), the second piece is that match, and the rest is the split of the text after it |
| Markdown.Split | components/MarkdownRenderer.tsx:30 | definition: `text.split(regex)` from the start of the text; see SplitRoundTrip and SplitWithoutMarkup |
| Markdown.SplitRoundTrip | components/MarkdownRenderer.tsx:28-30 | concatenating the segments gives back the input |
| Markdown.SplitWithoutMarkup | components/MarkdownRenderer.tsx:30 | text without '=', '*' or '[' is not split |
| Markdown.LinkParts | components/MarkdownRenderer.tsx:34 | a whole-piece link decomposes as "[" + text + "](" + url + ")" with terminator-free parts |
| Markdown.Classify | components/MarkdownRenderer.tsx:34-66 | a piece rendered as plain text is the piece itself |
| Markdown.HighlightRendered | components/MarkdownRenderer.tsx:50-56 | "==" + x + "==" renders as highlighted x |
| Markdown.BoldRendered | components/MarkdownRenderer.tsx:58-60 | "**" + x + "**" renders as bold x |
| Markdown.ItalicRendered | components/MarkdownRenderer.tsx:62-64 | "*" + x + "*" renders as italic x when x is non-empty and does not both start and end with '*' |
| Markdown.EmptyItalicIsBold | components/MarkdownRenderer.tsx:58-64 | the piece "**" passes the bold test first and renders as empty bold text |
| Markdown.FormatText | components/MarkdownRenderer.tsx:22-68 | one segment per split piece, an odd number of them |
| Markdown.LinkTokenParses | components/MarkdownRenderer.tsx:28-34 | every link the pattern matches decomposes into text and url when rendered |
| Markdown.TokenIsMarkup | components/MarkdownRenderer.tsx:34-64 | every match of the pattern is rendered as link, highlight, bold or italic, never as plain text |
| Markdown.FormatTextMarksTokens | components/MarkdownRenderer.tsx:30-67 | every odd segment of formatted text is markup |
| Markdown.PlainTextUnchanged | components/MarkdownRenderer.tsx:30-66 | text without markup characters is one plain segment equal to the text |
| Markdown.LinkRoundTrip | components/MarkdownRenderer.tsx:34-47 | "[text](url)" with no "](" in text and no terminators is a link with that text and url |
| Markdown.LoneAsteriskVanishes | components/MarkdownRenderer.tsx:62-64 | a line fragment "*" becomes empty emphasis |
| Markdown.SplitLines | components/MarkdownRenderer.tsx:70 | `split('\n')`: at least one line, none holds a newline, and joining with newlines gives the content back |
| Markdown.SplitAfterLine | components/MarkdownRenderer.tsx:70 | a newline-free line followed by a newline splits off as the first line, the rest splitting on its own |
| Markdown.JoinThenSplit | components/MarkdownRenderer.tsx:70 | splitting newline-joined lines gives the lines back |
| Markdown.NoNewlineIsOneLine | components/MarkdownRenderer.tsx:70 | content without a newline is one line |
| Markdown.LineCount | components/MarkdownRenderer.tsx:70 | there is one line more than there are newlines |
| Markdown.ParseLine | components/MarkdownRenderer.tsx:6-20 | a line is a spacer iff it is blank after trimming |
| Markdown.ParseBodyLine | components/MarkdownRenderer.tsx:13-19 | a non-heading line is a list item, spacer or paragraph; spacer iff it is blank and not a list line |
| Markdown.HeadingNotBlank | components/MarkdownRenderer.tsx:8-10 | a heading line is never blank |
| Markdown.H1Line | components/MarkdownRenderer.tsx:8 | a line starting "# " is a level-1 heading with the rest of the line as text |
| Markdown.H2Line | components/MarkdownRenderer.tsx:9 | a line starting "## " is a level-2 heading with the rest of the line as text |
| Markdown.H3Line | components/MarkdownRenderer.tsx:10 | a line starting "### " is a level-3 heading with the rest of the line as text |
| Markdown.NotHeadingLine | components/MarkdownRenderer.tsx:12-19 | a line with no heading marker is classified by the body rules |
| Markdown.HeadingMarkersExclusive | components/MarkdownRenderer.tsx:8-10 | at most one heading marker fits a line |
| Markdown.ParseLineHeadings | components/MarkdownRenderer.tsx:8-10 | heading level k iff the untrimmed line starts with its marker; the text is the line after it |
| Markdown.ParseBodyLineCases | components/MarkdownRenderer.tsx:13-19 | list item iff the trimmed line starts "- " or "* ", formatting what follows the bullet; paragraph iff neither and not blank, formatting the whole line |
| Markdown.ParseLineBody | components/MarkdownRenderer.tsx:13-19 | list item iff not a heading and the trimmed line starts "- " or "* ", formatting the trimmed line after the bullet; paragraph iff neither and not blank, formatting the untrimmed line |
| Markdown.Render | components/MarkdownRenderer.tsx:70-74 | one block per line: newlines + 1 blocks |
| Markdown.RenderLine | components/MarkdownRenderer.tsx:74 | block i is line i parsed |
| Session.WithoutId | App.tsx:43 | exactly the files whose id differs, none added |
| Session.WithoutIdConcat | App.tsx:43 | the files kept stay in order |
| Session.WithoutAbsentId | App.tsx:43 | removing an id no file has changes nothing |
| Session.HasMainFile | App.tsx:46-48 | definition: `canAnalyze`, some file is a main note; see HasMainFileIff |
| Session.HasMainFileIff | App.tsx:46-52 | analysis is possible iff filtering for main notes leaves a file to send |
| Session.FindIndex | App.tsx:87 | `find`: the first topic with the id; None iff none has it |
| Session.FindTopic | App.tsx:87 | the found topic is in the list with that id; None iff no topic has it |
| Session.SelectedTopic | App.tsx:86-88 | a topic is acted on only for a non-empty selected id that names a known topic |
| Session.Uploaded | App.tsx:38-40 | definition: the state after an upload, which HandleUpload is proved to reach |
| Session.Removed | App.tsx:42-44 | definition: the state after a removal, which HandleRemoveFile is proved to reach |
| Session.AnalyzeStarted | App.tsx:54 | definition: only the analyzing flag is set |
| Session.AnalyzeFinished | App.tsx:55-64 | definition: success stores the topics and opens the dashboard; either way the flag clears |
| Session.TopicOpened | App.tsx:68-73 | definition: the six setter calls made when a topic is opened |
| Session.TopicLoaded | App.tsx:75-82 | definition: the guide becomes the markdown or the load error, and the busy flag clears |
| Session.SearchStarted | App.tsx:90 | definition: only the searching flag is set |
| Session.SearchFinished | App.tsx:91-98 | definition: a result is appended to the guide; either way the flag clears |
| Session.DiagramStarted | App.tsx:106-107 | definition: busy is set and the no-diagram flag is cleared |
| Session.DiagramFinished | App.tsx:108-119 | definition: the sentinel sets the flag, another result becomes the diagram, and the busy flag clears |
| Session.Rotated | App.tsx:27-36 | definition: one tick of the interval, advancing modulo five while analyzing or generating |
| Session.AnalyzeEnabled | App.tsx:154 | definition: the analyze button is enabled iff there is a main file and no analysis is running |
| Session.DiagramButtonShown | App.tsx:287 | definition: the flowchart button shows while the guide is on screen, with no (or an empty) diagram and no no-diagram note |
| Session.WebSearchOffered | App.tsx:311 | definition: the search button shows while the guide is on screen and lacks the live-resources marker |
| Session.DiagramEnabled | App.tsx:287-290 | definition: the flowchart button is shown and not disabled by `isGeneratingDiagram` |
| Session.WebSearchEnabled | App.tsx:311-314 | definition: the search button is shown and not disabled by `isSearchingWeb` |
| Session.SearchNotRetriggered | App.tsx:311-314 | once a search starts its button is disabled; when it settles the button is enabled again iff it is still shown |
| Session.DiagramNotRetriggered | App.tsx:287-290 | once a diagram request starts its button is disabled; when it settles the button is enabled again iff it is still shown |
| Session.UploadKeepsOrder | App.tsx:38-40 | every category lists its old files then the new ones; a main file stays present |
| Session.AnalyzeOutcome | App.tsx:50-65 | while analyzing the button is disabled; afterwards idle, and success sets topics and the dashboard while failure changes neither |
| Session.TopicSelectOutcome | App.tsx:67-83 | opening clears guide and diagram state; the settled guide is the synthesis text, or the load error without a key, and never empty |
| Session.SearchAppends | App.tsx:85-99 | a search only appends its result to the guide; a rejection leaves it unchanged |
| Session.SearchNotReoffered | App.tsx:311 | after a successful web call the search button is no longer offered |
| Session.DiagramOutcome | App.tsx:101-120 | the flag is reset first, then set exactly by "NO_DIAGRAM"; the diagram changes only to a real result |
| Session.DiagramButtonHidden | App.tsx:287 | a settled non-empty diagram result hides the flowchart button |
| Session.RotationInRange | App.tsx:27-36 | the index stays within the messages and moves only while analyzing or generating |
| Session.RotateStep | App.tsx:30-32 | one tick while analyzing or generating advances the message index by one modulo five, changing nothing else |
| Session.RotationCycles | App.tsx:30-32 | five ticks while analyzing or generating bring the message back round |
| Session.Page.constructor | App.tsx:10-25 | the initial state: upload view, nothing loaded, nothing busy |
| Session.Page.HandleUpload | App.tsx:38-40 | new files are appended after the existing ones; nothing else changes |
| Session.Page.HandleRemoveFile | App.tsx:42-44 | every file with that id is removed; nothing else changes |
| Session.Page.BeginAnalyze | App.tsx:54 | only the busy flag is set |
| Session.Page.CompleteAnalyze | App.tsx:55-64 | stores topics and opens the dashboard on success, then clears the busy flag |
| Session.Page.OnAnalyzeClick | App.tsx:50-65 | no change and no request without main notes; otherwise only the main notes are sent, in upload order |
| Session.Page.BeginTopicSelect | App.tsx:68-73 | selects the topic, opens the study view, clears guide and diagram state, sets busy |
| Session.Page.CompleteTopicSelect | App.tsx:75-82 | stores the guide or the load error, then clears busy |
| Session.Page.OnTopicSelect | App.tsx:67-83 | the synthesis request carries every uploaded file; the state follows the reply |
| Session.Page.BeginWebSearch | App.tsx:90 | only the searching flag is set |
| Session.Page.CompleteWebSearch | App.tsx:92-97 | appends the result to the guide, then clears the flag |
| Session.Page.HandleWebSearch | App.tsx:85-99 | no-op without a selected known topic; otherwise the reply is appended |
| Session.Page.BeginDiagram | App.tsx:106-107 | sets busy and clears the no-diagram flag |
| Session.Page.CompleteDiagram | App.tsx:108-119 | the sentinel sets the flag, another result becomes the diagram, a rejection changes neither |
| Session.Page.HandleDiagramGeneration | App.tsx:101-120 | no-op without a selected known topic; otherwise the state follows the reply |
| Session.Page.HandleCopyContent | App.tsx:122-126 | the guide is handed over verbatim and the feedback is shown |
| Session.Page.CopyFeedbackElapsed | App.tsx:125 | the feedback timer clears only the feedback |
| Session.Page.RotateLoadingMessage | App.tsx:28-33 | one timer tick of the loading message |
| Session.Page.BackToUpload | App.tsx:188 | only the view changes, files and topics are kept |
| Session.Page.BackToTopics | App.tsx:246 | only the selection is cleared |

## Left out

- The language-model SDK call, the prompt wording, the response schema and `temperature` are left out. They are foreign calls or configuration. The backend appears only as the sequence of outcomes of its calls, and prompts only as which prompt was sent for which topic.
- `JSON.parse` is a parameter. The cast to `Topic[]` validates nothing, so topics are taken as parsed.
- Timers (`setTimeout`, `setInterval`, the waits between retries) are left out. Waits are recorded as a list of delays, and each timer tick is a method of its own.
- `await` interleavings are not modelled. Each handler's two halves are separate methods that the environment may call in any order, but the combined methods run them back to back.
- `console`, `alert` and the clipboard are left out as I/O. `Session.Page.HandleCopyContent` returns the text written to the clipboard.
- React rendering, JSX and CSS classes are left out. Blocks and inline segments are values, and the button gates are predicates on the state.
- components/FileUploadCard.tsx, components/MermaidRenderer.tsx and utils/fileHelpers.ts are not part of this model. They are DOM, `FileReader` and library wrappers.
- The sidebar holding the Back button at App.tsx:188 is hidden on narrow screens while a topic is selected (App.tsx:185). Screen width is not modelled, so the method may be called in any state; it changes only the view.
- Strings are sequences of code points, not UTF-16 code units. For the emoji in the web header this changes indices but not contents or containment.
- Strings.IsJsSpace lists the ECMAScript white-space and line-terminator characters by code point. The Unicode "Zs" category is listed explicitly, as it stands today.
- GeminiService.ExtractionReply: the model does not check that a parsed topic list satisfies the response schema, because the source does not either.

=== FILE: gemini_service.dfy ===
/**
 * The orchestration service: builds the multi-part requests for chapter
 * extraction and topic synthesis, runs every backend call through the
 * retry wrapper, and turns responses (or failures) into what the session
 * stores.
 *
 * The backend is a parameter: `backend(k)` is the outcome of the k-th call
 * of one request. Prompt wording is opaque (`Prompt`); only which prompt,
 * and for which topic, is modelled. A missing API key is the empty string.
 */
module GeminiService {
  import opened Types
  import opened Strings
  import opened Retry

  /** The instruction texts, identified by purpose and topic. */
  datatype Prompt =
    | ExtractionPrompt
    | SynthesisPrompt(topicName: string)
    | WebLinksPrompt(topicName: string)
    | DiagramPrompt(topicName: string)

  /** One element of a request's `parts` array. */
  datatype Part = Instructions(prompt: Prompt) | Text(text: string) | InlineData(mimeType: string, data: string)

  /** A grounding chunk's web reference; an absent field is "". */
  datatype Chunk = Chunk(uri: string, title: string)

  /** A response: its text ("" when absent) and the first candidate's grounding chunks, if any. */
  datatype Response = Response(text: string, groundingChunks: Option<seq<Chunk>>)

  type Backend = nat -> Outcome<Response>

  const MissingKeyMessage := "API Key is missing"
  const ExtractionFailedMessage := "Failed to extract chapters from notes. The file might be too large or the service is busy."
  const NoContentMessage := "No content generated."
  const SynthesisErrorStub := "## Error\nUnable to generate reading guide. Please try again."
  const WebResourcesMarker := "Live Web Resources"
  const WebHeader := "\n\n## 🌐 Live Web Resources (PIB/News)\n"
  const CitationsHeader := "\n\n**Source Citations:**\n"
  /** The failure notice, written in four pieces so that proofs about its letters stay small. */
  const WebFailureNotice := "\n\n*Failed " + "to fetch live " + "web links " + "at this time.*"
  const NoDiagram := "NO_DIAGRAM"
  const MermaidFence := "```mermaid"

  // ===== Chapter extraction =====

  /** The caption before the i-th (0-based) main note file. */
  function ExtractionLabel(index: nat, name: string): string
  {
    "\n--- Main Note Document " + NatToString(index + 1) + ": " + name + " ---"
  }

  /** The extraction request: the prompt, then a caption and the content of each main file, in order. */
  ghost predicate ExtractionLayout(parts: seq<Part>, mainFiles: seq<UploadedFile>)
  {
    && |parts| == 1 + 2 * |mainFiles|
    && parts[0] == Instructions(ExtractionPrompt)
    && forall i :: 0 <= i < |mainFiles| ==>
         && parts[2 * i + 1] == Text(ExtractionLabel(i, mainFiles[i].name))
         && parts[2 * i + 2] == InlineData(mainFiles[i].mimeType, mainFiles[i].base64)
  }

  method BuildExtractionParts(mainFiles: seq<UploadedFile>) returns (parts: seq<Part>)
    ensures ExtractionLayout(parts, mainFiles)
  {
    parts := [Instructions(ExtractionPrompt)];
    var index := 0;
    while index < |mainFiles|
      invariant 0 <= index <= |mainFiles|
      invariant |parts| == 1 + 2 * index
      invariant parts[0] == Instructions(ExtractionPrompt)
      invariant forall i :: 0 <= i < index ==>
         && parts[2 * i + 1] == Text(ExtractionLabel(i, mainFiles[i].name))
         && parts[2 * i + 2] == InlineData(mainFiles[i].mimeType, mainFiles[i].base64)
    {
      var file := mainFiles[index];
      parts := parts + [Text(ExtractionLabel(index, file.name))];
      parts := parts + [InlineData(file.mimeType, file.base64)];
      index := index + 1;
    }
  }

  /**
   * Post-processing of extraction: every failure, of the backend or of the
   * JSON parse, surfaces as one fixed message; an empty text is no topics.
   */
  function ExtractionResult(outcome: Outcome<Response>, parse: string -> Option<seq<Topic>>): (r: Result<seq<Topic>>)
    ensures r.Err? ==> r.message == ExtractionFailedMessage
    ensures r.Err? <==> outcome.Failure? || (outcome.value.text != "" && parse(outcome.value.text).None?)
    ensures r.Ok? && r.value != [] ==> outcome.value.text != "" && parse(outcome.value.text) == Some(r.value)
    ensures outcome.Success? && outcome.value.text == "" ==> r == Ok([])
    ensures outcome.Success? && outcome.value.text != "" && parse(outcome.value.text).Some? ==>
      r == Ok(parse(outcome.value.text).value)
  {
    match outcome
    case Failure(_) => Err(ExtractionFailedMessage)
    case Success(response) =>
      if response.text == "" then Ok([])
      else match parse(response.text)
        case None => Err(ExtractionFailedMessage)
        case Some(topics) => Ok(topics)
  }

  /** What chapter extraction resolves to (`Ok`) or rejects with (`Err`). */
  function ExtractionReply(apiKey: string, backend: Backend, parse: string -> Option<seq<Topic>>): (r: Result<seq<Topic>>)
    ensures apiKey == "" ==> r == Err(MissingKeyMessage)
    ensures r.Err? ==> r.message == MissingKeyMessage || r.message == ExtractionFailedMessage
  {
    if apiKey == "" then Err(MissingKeyMessage)
    else ExtractionResult(RetryOperation(backend, DefaultRetries, DefaultDelay).outcome, parse)
  }

  method ExtractChaptersFromNotes(apiKey: string, mainFiles: seq<UploadedFile>, backend: Backend,
                                  parse: string -> Option<seq<Topic>>)
    returns (r: Result<seq<Topic>>, request: Option<seq<Part>>)
    ensures r == ExtractionReply(apiKey, backend, parse)
    ensures apiKey == "" <==> request == None
    ensures apiKey != "" ==> request.Some? && ExtractionLayout(request.value, mainFiles)
  {
    if apiKey == "" {
      return Err(MissingKeyMessage), None;
    }
    var parts := BuildExtractionParts(mainFiles);
    request := Some(parts);
    var run := RetryOperation(backend, DefaultRetries, DefaultDelay);
    r := ExtractionResult(run.outcome, parse);
  }

  // ===== Topic synthesis =====

  /** The caption each category's files carry in a synthesis request. */
  function CategoryLabel(t: DocType): string
  {
    match t
    case MAIN => "Main Notes (Mrunal)"
    case PYQ => "Previous Year Questions (PYQ)"
    case NCERT => "NCERT Basics"
    case CURRENT => "Current Affairs PDF"
  }

  function DocumentLabel(caption: string, name: string): string
  {
    "\n--- Document: " + caption + " (" + name + ") ---"
  }

  /** The two parts that introduce and carry one file. */
  function FilePair(f: UploadedFile, caption: string): seq<Part>
  {
    [Text(DocumentLabel(caption, f.name)), InlineData(f.mimeType, f.base64)]
  }

  /** The parts `addFiles` pushes for a list of files under one caption. */
  function FileParts(fs: seq<UploadedFile>, caption: string): seq<Part>
  {
    if |fs| == 0 then [] else FileParts(fs[..|fs| - 1], caption) + FilePair(fs[|fs| - 1], caption)
  }

  /** The parts for a list of files, each labelled by its own category. */
  function LabelledParts(fs: seq<UploadedFile>): seq<Part>
  {
    if |fs| == 0 then [] else LabelledParts(fs[..|fs| - 1]) + FilePair(fs[|fs| - 1], CategoryLabel(fs[|fs| - 1].docType))
  }

  /** The synthesis request: the prompt, then the files by category in the order main, PYQ, NCERT, current affairs. */
  function SynthesisParts(topicName: string, files: seq<UploadedFile>): seq<Part>
  {
    [Instructions(SynthesisPrompt(topicName))]
      + FileParts(OfType(files, MAIN), CategoryLabel(MAIN))
      + FileParts(OfType(files, PYQ), CategoryLabel(PYQ))
      + FileParts(OfType(files, NCERT), CategoryLabel(NCERT))
      + FileParts(OfType(files, CURRENT), CategoryLabel(CURRENT))
  }

  /** The files in the order a synthesis request attaches them. */
  function Grouped(files: seq<UploadedFile>): seq<UploadedFile>
  {
    OfType(files, MAIN) + OfType(files, PYQ) + OfType(files, NCERT) + OfType(files, CURRENT)
  }

  /** `addFiles`: pushes a caption and the content of each file of the list, in order. */
  method AddFiles(parts: seq<Part>, fileList: seq<UploadedFile>, caption: string) returns (result: seq<Part>)
    ensures result == parts + FileParts(fileList, caption)
  {
    result := parts;
    var i := 0;
    while i < |fileList|
      invariant 0 <= i <= |fileList|
      invariant result == parts + FileParts(fileList[..i], caption)
    {
      var file := fileList[i];
      assert fileList[..i + 1][..i] == fileList[..i];
      result := result + [Text(DocumentLabel(caption, file.name))];
      result := result + [InlineData(file.mimeType, file.base64)];
      i := i + 1;
    }
    assert fileList[..|fileList|] == fileList;
  }

  method BuildSynthesisParts(topicName: string, files: seq<UploadedFile>) returns (parts: seq<Part>)
    ensures parts == SynthesisParts(topicName, files)
  {
    var mainFiles := OfType(files, MAIN);
    var ncertFiles := OfType(files, NCERT);
    var currentFiles := OfType(files, CURRENT);
    var pyqFiles := OfType(files, PYQ);
    parts := [Instructions(SynthesisPrompt(topicName))];
    parts := AddFiles(parts, mainFiles, CategoryLabel(MAIN));
    parts := AddFiles(parts, pyqFiles, CategoryLabel(PYQ));
    parts := AddFiles(parts, ncertFiles, CategoryLabel(NCERT));
    parts := AddFiles(parts, currentFiles, CategoryLabel(CURRENT));
  }

  /** Files of one category labelled with that category's caption are labelled by their own category. */
  lemma {:induction false} FilePartsOfOneCategory(fs: seq<UploadedFile>, t: DocType)
    requires forall f :: f in fs ==> f.docType == t
    ensures FileParts(fs, CategoryLabel(t)) == LabelledParts(fs)
  {
    if |fs| > 0 {
      var init := fs[..|fs| - 1];
      assert forall f :: f in init ==> f in fs;
      assert fs[|fs| - 1] in fs;
      FilePartsOfOneCategory(init, t);
    }
  }

  lemma {:induction false} LabelledPartsConcat(a: seq<UploadedFile>, b: seq<UploadedFile>)
    ensures LabelledParts(a + b) == LabelledParts(a) + LabelledParts(b)
    decreases |b|
  {
    if |b| == 0 {
      assert a + b == a;
    } else {
      assert (a + b)[..|a + b| - 1] == a + b[..|b| - 1];
      LabelledPartsConcat(a, b[..|b| - 1]);
    }
  }

  lemma {:induction false} LabelledPartsLength(fs: seq<UploadedFile>)
    ensures |LabelledParts(fs)| == 2 * |fs|
  {
    if |fs| > 0 {
      LabelledPartsLength(fs[..|fs| - 1]);
    }
  }

  /** File i of the list is introduced by part 2i (its caption) and carried by part 2i + 1. */
  lemma {:induction false} LabelledPartsAt(fs: seq<UploadedFile>, i: nat)
    requires i < |fs|
    ensures |LabelledParts(fs)| == 2 * |fs|
    ensures LabelledParts(fs)[2 * i] == Text(DocumentLabel(CategoryLabel(fs[i].docType), fs[i].name))
    ensures LabelledParts(fs)[2 * i + 1] == InlineData(fs[i].mimeType, fs[i].base64)
  {
    var init := fs[..|fs| - 1];
    LabelledPartsLength(init);
    LabelledPartsStep(fs);
    if i < |init| {
      LabelledPartsAt(init, i);
      assert init[i] == fs[i];
    }
  }

  /** Unfolding once: the last file's two parts follow those of the files before it. */
  lemma LabelledPartsStep(fs: seq<UploadedFile>)
    requires |fs| > 0
    ensures LabelledParts(fs) == LabelledParts(fs[..|fs| - 1]) + FilePair(fs[|fs| - 1], CategoryLabel(fs[|fs| - 1].docType))
  {
  }

  /** Filtering the first file: it joins its own category's group and no other. */
  lemma OfTypeStep(files: seq<UploadedFile>, t: DocType)
    requires |files| > 0
    ensures multiset(OfType(files, t)) ==
      (if files[0].docType == t then multiset{files[0]} else multiset{}) + multiset(OfType(files[1..], t))
  {
  }

  lemma MultisetOfFour(a: seq<UploadedFile>, b: seq<UploadedFile>, c: seq<UploadedFile>, d: seq<UploadedFile>)
    ensures multiset(a + b + c + d) == multiset(a) + multiset(b) + multiset(c) + multiset(d)
  {
  }

  /** The first file lands in exactly one of the four groups. */
  lemma GroupedStep(files: seq<UploadedFile>)
    requires |files| > 0
    ensures multiset(Grouped(files)) == multiset{files[0]} + multiset(Grouped(files[1..]))
  {
    var rest := files[1..];
    OfTypeStep(files, MAIN);
    OfTypeStep(files, PYQ);
    OfTypeStep(files, NCERT);
    OfTypeStep(files, CURRENT);
    MultisetOfFour(OfType(files, MAIN), OfType(files, PYQ), OfType(files, NCERT), OfType(files, CURRENT));
    MultisetOfFour(OfType(rest, MAIN), OfType(rest, PYQ), OfType(rest, NCERT), OfType(rest, CURRENT));
  }

  /** Every uploaded file is attached exactly once: the grouping is a permutation. */
  lemma {:induction false} GroupedIsPermutation(files: seq<UploadedFile>)
    ensures multiset(Grouped(files)) == multiset(files)
    ensures |Grouped(files)| == |files|
  {
    if |files| > 0 {
      GroupedIsPermutation(files[1..]);
      GroupedStep(files);
      MultisetCons(files);
    }
    assert |multiset(Grouped(files))| == |Grouped(files)|;
    assert |multiset(files)| == |files|;
  }

  lemma MultisetCons(xs: seq<UploadedFile>)
    requires |xs| > 0
    ensures multiset(xs) == multiset{xs[0]} + multiset(xs[1..])
  {
    assert xs == [xs[0]] + xs[1..];
  }

  /** The four caption groups of a synthesis request, read as one labelled list. */
  lemma GroupedParts(files: seq<UploadedFile>)
    ensures FileParts(OfType(files, MAIN), CategoryLabel(MAIN))
      + FileParts(OfType(files, PYQ), CategoryLabel(PYQ))
      + FileParts(OfType(files, NCERT), CategoryLabel(NCERT))
      + FileParts(OfType(files, CURRENT), CategoryLabel(CURRENT))
      == LabelledParts(Grouped(files))
  {
    var m, p, n, c := OfType(files, MAIN), OfType(files, PYQ), OfType(files, NCERT), OfType(files, CURRENT);
    FilePartsOfOneCategory(m, MAIN);
    FilePartsOfOneCategory(p, PYQ);
    FilePartsOfOneCategory(n, NCERT);
    FilePartsOfOneCategory(c, CURRENT);
    LabelledPartsConcat(m, p);
    LabelledPartsConcat(m + p, n);
    LabelledPartsConcat(m + p + n, c);
  }

  /** Proof step: regrouping the request's five pieces, kept out of the larger proof. */
  lemma AppendAfterPrompt(a: seq<Part>, b: seq<Part>, c: seq<Part>, d: seq<Part>, e: seq<Part>)
    ensures a + b + c + d + e == a + (b + c + d + e)
  {
  }

  /**
   * The synthesis request is the prompt followed by every file, grouped by
   * category in the fixed order, each as a caption naming its category and
   * file followed by its content: 1 + 2·|files| parts in all.
   */
  lemma SynthesisLayout(topicName: string, files: seq<UploadedFile>)
    ensures SynthesisParts(topicName, files) == [Instructions(SynthesisPrompt(topicName))] + LabelledParts(Grouped(files))
    ensures |SynthesisParts(topicName, files)| == 1 + 2 * |files|
  {
    GroupedParts(files);
    AppendAfterPrompt([Instructions(SynthesisPrompt(topicName))],
      FileParts(OfType(files, MAIN), CategoryLabel(MAIN)),
      FileParts(OfType(files, PYQ), CategoryLabel(PYQ)),
      FileParts(OfType(files, NCERT), CategoryLabel(NCERT)),
      FileParts(OfType(files, CURRENT), CategoryLabel(CURRENT)));
    LabelledPartsLength(Grouped(files));
    GroupedIsPermutation(files);
  }

  function SynthesisResult(outcome: Outcome<Response>): (r: string)
    ensures r != ""
    ensures outcome.Success? && outcome.value.text != "" ==> r == outcome.value.text
    ensures outcome.Success? && outcome.value.text == "" ==> r == NoContentMessage
    ensures outcome.Failure? ==> r == SynthesisErrorStub
  {
    match outcome
    case Failure(_) => SynthesisErrorStub
    case Success(response) => if response.text != "" then response.text else NoContentMessage
  }

  /** What topic synthesis resolves to: only a missing key rejects; any other failure has a fallback text. */
  function SynthesisReply(apiKey: string, backend: Backend): (r: Result<string>)
    ensures r.Err? <==> apiKey == ""
    ensures r.Err? ==> r.message == MissingKeyMessage
    ensures r.Ok? ==> r.value != ""
  {
    if apiKey == "" then Err(MissingKeyMessage)
    else Ok(SynthesisResult(RetryOperation(backend, DefaultRetries, DefaultDelay).outcome))
  }

  method SynthesizeTopic(apiKey: string, topicName: string, files: seq<UploadedFile>, backend: Backend)
    returns (r: Result<string>, request: Option<seq<Part>>)
    ensures r == SynthesisReply(apiKey, backend)
    ensures apiKey == "" ==> request == None
    ensures apiKey != "" ==> request == Some(SynthesisParts(topicName, files))
  {
    if apiKey == "" {
      return Err(MissingKeyMessage), None;
    }
    var parts := BuildSynthesisParts(topicName, files);
    request := Some(parts);
    var run := RetryOperation(backend, DefaultRetries, DefaultDelay);
    r := Ok(SynthesisResult(run.outcome));
  }

  // ===== Web links =====

  predicate HasWebSource(c: Chunk)
  {
    c.uri != "" && c.title != ""
  }

  /** The chunks that are listed as citations: those with both a URI and a title. */
  function Cited(cs: seq<Chunk>): (r: seq<Chunk>)
    ensures |r| <= |cs|
    ensures forall c :: c in r <==> c in cs && HasWebSource(c)
  {
    if |cs| == 0 then []
    else Cited(cs[..|cs| - 1]) + (if HasWebSource(cs[|cs| - 1]) then [cs[|cs| - 1]] else [])
  }

  /** Citation filtering keeps chunk order. */
  lemma {:induction false} CitedConcat(a: seq<Chunk>, b: seq<Chunk>)
    ensures Cited(a + b) == Cited(a) + Cited(b)
    decreases |b|
  {
    if |b| == 0 {
      assert a + b == a;
    } else {
      assert (a + b)[..|a + b| - 1] == a + b[..|b| - 1];
      CitedConcat(a, b[..|b| - 1]);
    }
  }

  function CitationLine(c: Chunk): string
  {
    "- [" + c.title + "](" + c.uri + ")\n"
  }

  /** One citation line per chunk, in order. */
  function CitationList(cs: seq<Chunk>): string
  {
    if |cs| == 0 then "" else CitationList(cs[..|cs| - 1]) + CitationLine(cs[|cs| - 1])
  }

  /** The text `findWebLinks` returns for a successful response. */
  function WebLinksBlock(response: Response): string
  {
    WebHeader + response.text +
      match response.groundingChunks
      case None => ""
      case Some(cs) => CitationsHeader + CitationList(Cited(cs))
  }

  /** Proof step: regrouping an append, kept out of the loop's proof. */
  lemma AppendAfterHead(head: string, x: string, y: string)
    ensures head + x + y == head + (x + y)
  {
  }

  /** One more chunk adds its citation line exactly when it has a web source. */
  lemma CitationStep(chunks: seq<Chunk>, i: nat)
    requires i < |chunks|
    ensures CitationList(Cited(chunks[..i + 1])) ==
      CitationList(Cited(chunks[..i])) + (if HasWebSource(chunks[i]) then CitationLine(chunks[i]) else "")
  {
    var done := Cited(chunks[..i]);
    assert chunks[..i + 1][..i] == chunks[..i];
    if HasWebSource(chunks[i]) {
      assert Cited(chunks[..i + 1]) == done + [chunks[i]];
      assert (done + [chunks[i]])[..|done|] == done;
    } else {
      assert Cited(chunks[..i + 1]) == done;
    }
  }

  /** Accumulates the output as the source does, one citation at a time. */
  method ComposeWebLinks(response: Response) returns (output: string)
    ensures output == WebLinksBlock(response)
  {
    output := WebHeader;
    output := output + response.text;
    if response.groundingChunks.Some? {
      var chunks := response.groundingChunks.value;
      output := output + CitationsHeader;
      ghost var head := output;
      var i := 0;
      while i < |chunks|
        invariant 0 <= i <= |chunks|
        invariant output == head + CitationList(Cited(chunks[..i]))
      {
        CitationAccumulates(head, chunks, i, output);
        if chunks[i].uri != "" && chunks[i].title != "" {
          output := output + CitationLine(chunks[i]);
        }
        i := i + 1;
      }
      WebLinksBlockWithChunks(response);
      assert chunks[..|chunks|] == chunks;
    }
  }

  /** Proof step: the loop's output keeps following the citation list, one chunk at a time. */
  lemma CitationAccumulates(head: string, chunks: seq<Chunk>, i: nat, output: string)
    requires i < |chunks| && output == head + CitationList(Cited(chunks[..i]))
    ensures HasWebSource(chunks[i]) ==> output + CitationLine(chunks[i]) == head + CitationList(Cited(chunks[..i + 1]))
    ensures !HasWebSource(chunks[i]) ==> output == head + CitationList(Cited(chunks[..i + 1]))
  {
    CitationStep(chunks, i);
    AppendAfterHead(head, CitationList(Cited(chunks[..i])), CitationLine(chunks[i]));
  }

  /** Proof step: with a chunk list, the block is the header, the text, the citations header and the list. */
  lemma WebLinksBlockWithChunks(response: Response)
    requires response.groundingChunks.Some?
    ensures WebLinksBlock(response) ==
      WebHeader + response.text + CitationsHeader + CitationList(Cited(response.groundingChunks.value))
  {
    AppendAfterHead(WebHeader + response.text, CitationsHeader, CitationList(Cited(response.groundingChunks.value)));
  }

  lemma HeaderHasMarker()
    ensures Contains(WebHeader, WebResourcesMarker)
  {
    var before, after := "\n\n## \U{1F310} ", " (PIB/News)\n";
    assert WebHeader == before + WebResourcesMarker + after;
    assert StartsWith(WebResourcesMarker[0..], WebResourcesMarker);
    ContainsConcat(before, WebResourcesMarker, WebResourcesMarker);
    ContainsConcat(before + WebResourcesMarker, after, WebResourcesMarker);
  }

  /** Whatever follows a head that carries the marker, the whole still starts with the head and carries it. */
  lemma HeadCarries(a: string, b: string, tail: string, m: string)
    requires Contains(a, m)
    ensures StartsWith(a + b + tail, a + b)
    ensures Contains(a + b + tail, m)
  {
    assert (a + b + tail)[..|a + b|] == a + b;
    ContainsConcat(a, b + tail, m);
    assert a + b + tail == a + (b + tail);
  }

  /** A successful block starts with the header and the response text, and so carries the marker. */
  lemma WebLinksBlockShape(response: Response)
    ensures StartsWith(WebLinksBlock(response), WebHeader + response.text)
    ensures Contains(WebLinksBlock(response), WebResourcesMarker)
    ensures response.groundingChunks == None ==> WebLinksBlock(response) == WebHeader + response.text
  {
    var tail := match response.groundingChunks
      case None => ""
      case Some(cs) => CitationsHeader + CitationList(Cited(cs));
    assert WebLinksBlock(response) == WebHeader + response.text + tail;
    HeaderHasMarker();
    HeadCarries(WebHeader, response.text, tail, WebResourcesMarker);
    if response.groundingChunks == None {
      assert WebHeader + response.text + "" == WebHeader + response.text;
    }
  }

  /** The string has no capital 'L', the marker's first letter. */
  predicate LacksL(s: string)
  {
    forall i :: 0 <= i < |s| ==> s[i] != 'L'
  }

  /** A string without the marker's first letter does not contain the marker. */
  lemma NoFirstLetterNoMarker(s: string)
    requires LacksL(s)
    ensures !Contains(s, WebResourcesMarker)
  {
    assert WebResourcesMarker == "L" + "ive Web Resources";
    forall i | 0 <= i <= |s|
      ensures !StartsWith(s[i..], WebResourcesMarker)
    {
      if i < |s| {
        assert s[i..][0] == s[i];
      }
    }
  }

  lemma LacksLConcat(a: string, b: string)
    requires LacksL(a) && LacksL(b)
    ensures LacksL(a + b)
  {
    forall i | |a| <= i < |a + b|
      ensures (a + b)[i] != 'L'
    {
      assert (a + b)[i] == b[i - |a|];
    }
  }

  lemma NoticeChunksLackL()
    ensures LacksL("\n\n*Failed ") && LacksL("to fetch live ")
    ensures LacksL("web links ") && LacksL("at this time.*")
  {
  }

  lemma LacksLOfFour(a: string, b: string, c: string, d: string)
    requires LacksL(a) && LacksL(b) && LacksL(c) && LacksL(d)
    ensures LacksL(a + b + c + d)
  {
    LacksLConcat(a, b);
    LacksLConcat(a + b, c);
    LacksLConcat(a + b + c, d);
  }

  /** The failure notice does not carry the marker, so the search stays on offer after a failure. */
  lemma WebFailureNoticeHasNoMarker()
    ensures !Contains(WebFailureNotice, WebResourcesMarker)
  {
    NoticeChunksLackL();
    LacksLOfFour("\n\n*Failed ", "to fetch live ", "web links ", "at this time.*");
    NoFirstLetterNoMarker(WebFailureNotice);
  }

  function WebLinksResult(outcome: Outcome<Response>): (r: string)
    ensures outcome.Success? ==> StartsWith(r, WebHeader + outcome.value.text)
    ensures outcome.Failure? ==> r == WebFailureNotice
  {
    match outcome
    case Failure(_) => WebFailureNotice
    case Success(response) => WebLinksBlockShape(response); WebLinksBlock(response)
  }

  /** What the web-link search resolves to: only a missing key rejects. */
  function WebLinksReply(apiKey: string, backend: Backend): (r: Result<string>)
    ensures r.Err? <==> apiKey == ""
    ensures r.Ok? && RetryOperation(backend, DefaultRetries, DefaultDelay).outcome.Success? ==> Contains(r.value, WebResourcesMarker)
    ensures r.Ok? && RetryOperation(backend, DefaultRetries, DefaultDelay).outcome.Failure? ==> r.value == WebFailureNotice
  {
    if apiKey == "" then Err(MissingKeyMessage)
    else
      var outcome := RetryOperation(backend, DefaultRetries, DefaultDelay).outcome;
      if outcome.Success? then WebLinksBlockShape(outcome.value); Ok(WebLinksResult(outcome))
      else Ok(WebLinksResult(outcome))
  }

  method FindWebLinks(apiKey: string, topicName: string, backend: Backend)
    returns (r: Result<string>, request: Option<seq<Part>>)
    ensures r == WebLinksReply(apiKey, backend)
    ensures apiKey == "" ==> request == None
    ensures apiKey != "" ==> request == Some([Instructions(WebLinksPrompt(topicName))])
  {
    if apiKey == "" {
      return Err(MissingKeyMessage), None;
    }
    request := Some([Instructions(WebLinksPrompt(topicName))]);
    var run := RetryOperation(backend, DefaultRetries, DefaultDelay);
    match run.outcome
    case Failure(_) =>
      r := Ok(WebFailureNotice);
    case Success(response) =>
      var output := ComposeWebLinks(response);
      r := Ok(output);
  }

  // ===== Diagram =====

  /** Trim, drop every "```mermaid", then every "```", and trim again. */
  function CleanDiagram(text: string): (r: string)
    ensures !Contains(r, Fence)
  {
    var unfenced := RemoveAll(RemoveAll(Trim(text), MermaidFence), Fence);
    RemoveFencesLeavesNone(RemoveAll(Trim(text), MermaidFence));
    TrimKeepsNoFence(unfenced);
    Trim(unfenced)
  }

  /** Removal leaves alone a prefix that holds no occurrence of the pattern's first character. */
  lemma {:induction false} RemoveAllSkipsPrefix(a: string, b: string, p: string)
    requires |p| > 0
    requires forall i :: 0 <= i < |a| ==> a[i] != p[0]
    ensures RemoveAll(a + b, p) == a + RemoveAll(b, p)
  {
    if |a| > 0 {
      assert (a + b)[1..] == a[1..] + b;
      RemoveAllSkipsPrefix(a[1..], b, p);
    } else {
      assert a + b == b;
    }
  }

  /** A fenced block is left alone by the first trim: it starts and ends with a backtick. */
  lemma FencedUntrimmed(body: string)
    ensures Trim(MermaidFence + body + Fence) == MermaidFence + body + Fence
  {
    var input := MermaidFence + body + Fence;
    assert MermaidFence == "`" + "``mermaid";
    assert input[0] == '`';
    assert TrimStart(input) == input;
    assert Fence == "``" + "`";
    assert input[|input| - 1] == '`';
  }

  lemma FenceSurvivesMermaidRemoval()
    ensures RemoveAll(Fence, MermaidFence) == Fence
  {
    assert Fence == "```";
    assert MermaidFence == Fence + "mermaid";
  }

  lemma FenceRemovedByItself()
    ensures RemoveAll(Fence, Fence) == ""
  {
    assert Fence[3..] == "";
  }

  lemma FirstTick()
    ensures MermaidFence[0] == '`'
  {
    assert MermaidFence == "`" + "``mermaid";
  }

  /** An occurrence at the very front is removed and removal continues after it. */
  lemma RemoveAllAtPrefix(p: string, rest: string)
    requires |p| > 0
    ensures RemoveAll(p + rest, p) == RemoveAll(rest, p)
  {
    assert (p + rest)[..|p|] == p;
    assert (p + rest)[|p|..] == rest;
  }

  /** Removing `p` from `p`, a body without `p`'s first character, and a tail that survives removal. */
  lemma OpeningRemoved(p: string, body: string, tail: string)
    requires |p| > 0
    requires forall i :: 0 <= i < |body| ==> body[i] != p[0]
    requires RemoveAll(tail, p) == tail
    ensures RemoveAll(p + body + tail, p) == body + tail
  {
    assert p + body + tail == p + (body + tail);
    RemoveAllAtPrefix(p, body + tail);
    RemoveAllSkipsPrefix(body, tail, p);
  }

  lemma OpeningFenceRemoved(body: string)
    requires forall i :: 0 <= i < |body| ==> body[i] != '`'
    ensures RemoveAll(MermaidFence + body + Fence, MermaidFence) == body + Fence
  {
    FirstTick();
    FenceSurvivesMermaidRemoval();
    OpeningRemoved(MermaidFence, body, Fence);
  }

  /** Removing both kinds of fence from a fenced block leaves its body. */
  lemma FencesRemoved(body: string)
    requires forall i :: 0 <= i < |body| ==> body[i] != '`'
    ensures RemoveAll(RemoveAll(MermaidFence + body + Fence, MermaidFence), Fence) == body
  {
    OpeningFenceRemoved(body);
    assert Fence == "`" + "``";
    RemoveAllSkipsPrefix(body, Fence, Fence);
    FenceRemovedByItself();
    assert body + "" == body;
  }

  /** A diagram the model wrapped in a mermaid fence comes back as its trimmed source. */
  lemma CleanFencedDiagram(body: string)
    requires forall i :: 0 <= i < |body| ==> body[i] != '`'
    ensures CleanDiagram(MermaidFence + body + Fence) == Trim(body)
  {
    FencedUntrimmed(body);
    FencesRemoved(body);
  }

  /** Post-processing of a diagram request: a failure becomes the sentinel. */
  function DiagramResult(outcome: Outcome<Response>): (r: string)
    ensures outcome.Failure? ==> r == NoDiagram
    ensures outcome.Success? ==> !Contains(r, Fence)
  {
    match outcome
    case Failure(_) => NoDiagram
    case Success(response) => CleanDiagram(response.text)
  }

  /** What diagram generation resolves to: the sentinel or a fence-free source; only a missing key rejects. */
  function DiagramReply(apiKey: string, backend: Backend): (r: Result<string>)
    ensures r.Err? <==> apiKey == ""
    ensures r.Ok? ==> r.value == NoDiagram || !Contains(r.value, Fence)
  {
    if apiKey == "" then Err(MissingKeyMessage)
    else Ok(DiagramResult(RetryOperation(backend, DefaultRetries, DefaultDelay).outcome))
  }

  method GenerateDiagram(apiKey: string, topicName: string, backend: Backend)
    returns (r: Result<string>, request: Option<seq<Part>>)
    ensures r == DiagramReply(apiKey, backend)
    ensures apiKey == "" ==> request == None
    ensures apiKey != "" ==> request == Some([Instructions(DiagramPrompt(topicName))])
  {
    if apiKey == "" {
      return Err(MissingKeyMessage), None;
    }
    request := Some([Instructions(DiagramPrompt(topicName))]);
    var run := RetryOperation(backend, DefaultRetries, DefaultDelay);
    r := Ok(DiagramResult(run.outcome));
  }
}

=== FILE: markdown.dfy ===
/**
 * The lightweight markdown renderer: the content is split into lines, each
 * line becomes one block (heading, list item, spacer or paragraph), and the
 * text of list items and paragraphs is split into inline segments
 * (highlight `==…==`, bold `**…**`, italic `*…*`, link `[text](url)` or
 * plain text).
 *
 * The inline splitter follows JavaScript's `String.prototype.split` with a
 * regular expression that has one capturing group around the alternation
 * `==.*?==|\*\*.*?\*\*|\*.*?\*|\[.*?\]\(.*?\)`: the leftmost position where
 * some alternative matches wins, alternatives are tried in that order, the
 * lazy `.*?` takes the shortest run that lets the match close, and `.`
 * never crosses a line terminator. Markup is the result (which element and
 * which text), not React nodes or CSS classes.
 */
module Markdown {
  import opened Types
  import opened Strings

  /** An inline segment of formatted text. */
  datatype Inline =
    | Link(text: string, url: string)
    | Highlight(text: string)
    | Bold(text: string)
    | Italic(text: string)
    | Plain(text: string)

  /** The element one line becomes. Headings show their text unformatted. */
  datatype Block =
    | H1(text: string)
    | H2(text: string)
    | H3(text: string)
    | ListItem(segments: seq<Inline>)
    | Spacer
    | Paragraph(segments: seq<Inline>)

  predicate NoTerminators(s: string)
  {
    forall i :: 0 <= i < |s| ==> !IsLineTerminator(s[i])
  }

  lemma NoTerminatorsSlice(s: string, a: nat, b: nat)
    requires a <= b <= |s| && NoTerminators(s)
    ensures NoTerminators(s[a..b])
  {
    forall i | 0 <= i < b - a
      ensures !IsLineTerminator(s[a..b][i])
    {
      assert s[a..b][i] == s[a + i];
    }
  }

  // ===== Matching the inline pattern =====

  /**
   * Where a lazy `.*?` started at `j` and followed by `d` stops: the first
   * position at or after `j` where `d` occurs, provided no line terminator
   * lies before it.
   */
  function FindClose(t: string, j: nat, d: string): (r: Option<nat>)
    requires j <= |t|
    ensures r.Some? ==> j <= r.value <= |t| && StartsWith(t[r.value..], d) && NoTerminators(t[j..r.value])
    ensures r.Some? ==> forall k :: j <= k < r.value ==> !StartsWith(t[k..], d)
    ensures r.None? ==> forall k :: j <= k <= |t| && NoTerminators(t[j..k]) ==> !StartsWith(t[k..], d)
    decreases |t| - j
  {
    if StartsWith(t[j..], d) then Some(j)
    else if j == |t| || IsLineTerminator(t[j]) then None
    else
      var r := FindClose(t, j + 1, d);
      assert forall k :: j + 1 <= k <= |t| ==> t[j..k] == [t[j]] + t[j + 1..k];
      r
  }

  /** The alternative `d.*?d` at position `q`: the end of the match, if it matches. */
  function MatchDelimited(t: string, q: nat, d: string): (r: Option<nat>)
    requires q <= |t| && |d| > 0
    ensures r.Some? ==> q + 2 * |d| <= r.value <= |t|
    ensures r.Some? ==> StartsWith(t[q..r.value], d) && EndsWith(t[q..r.value], d)
    ensures r.Some? ==> NoTerminators(t[q + |d|..r.value - |d|])
    ensures r.None? <==> !StartsWith(t[q..], d) || FindClose(t, q + |d|, d).None?
    ensures r.Some? ==> r.value == FindClose(t, q + |d|, d).value + |d|
  {
    if StartsWith(t[q..], d) then
      match FindClose(t, q + |d|, d)
      case None => None
      case Some(j) =>
        assert t[q..j + |d|][..|d|] == t[q..][..|d|];
        assert t[q..j + |d|][j - q..] == t[j..][..|d|];
        Some(j + |d|)
    else None
  }

  /** The alternative `\[.*?\]\(.*?\)` at position `q`: the end of the match, if it matches. */
  function MatchLink(t: string, q: nat): (r: Option<nat>)
    requires q <= |t|
    ensures r.Some? ==> q + 4 <= r.value <= |t| && t[q] == '[' && t[r.value - 1] == ')'
    ensures r.Some? ==> NoTerminators(t[q..r.value]) && Contains(t[q + 1..r.value - 1], "](")
  {
    if q < |t| && t[q] == '[' then
      match FindClose(t, q + 1, "](")
      case None => None
      case Some(j) =>
        match FindClose(t, j + 2, ")")
        case None => None
        case Some(k) =>
          LinkTokenShape(t, q, j, k);
          Some(k + 1)
    else None
  }

  /**
   * When the link alternative matches: a `[` at q, then a first `](` after
   * it, then a first `)` after that, with no line terminator in between; the
   * match ends just after that `)`.
   */
  lemma MatchLinkEnds(t: string, q: nat)
    requires q <= |t|
    ensures MatchLink(t, q).None? <==>
      || !(q < |t| && t[q] == '[')
      || FindClose(t, q + 1, "](").None?
      || FindClose(t, FindClose(t, q + 1, "](").value + 2, ")").None?
    ensures MatchLink(t, q).Some? ==>
      MatchLink(t, q).value == FindClose(t, FindClose(t, q + 1, "](").value + 2, ")").value + 1
  {
  }

  /** `d.*?d` matches a delimiter, a run free of its first character and of terminators, and the delimiter again. */
  lemma DelimitedRecognised(d: string, x: string, rest: string)
    requires |d| > 0
    requires forall i :: 0 <= i < |x| ==> x[i] != d[0] && !IsLineTerminator(x[i])
    ensures MatchDelimited(d + x + d + rest, 0, d) == Some(|x| + 2 * |d|)
  {
    var t := d + x + d + rest;
    var c := |d| + |x|;
    assert t[0..][..|d|] == d;
    assert t[c..][..|d|] == d;
    assert t[|d|..c] == x;
    forall k | |d| <= k < c
      ensures !StartsWith(t[k..], d)
    {
      assert t[k..][0] == x[k - |d|];
    }
  }

  /** `\[.*?\]\(.*?\)` matches a bracketed text without `]` followed by a parenthesised url without `)`. */
  lemma LinkRecognised(a: string, b: string, rest: string)
    requires forall i :: 0 <= i < |a| ==> a[i] != ']' && !IsLineTerminator(a[i])
    requires forall i :: 0 <= i < |b| ==> b[i] != ')' && !IsLineTerminator(b[i])
    ensures MatchLink("[" + a + "](" + b + ")" + rest, 0) == Some(|a| + |b| + 4)
  {
    var t := "[" + a + "](" + b + ")" + rest;
    var j := 1 + |a|;
    var k := j + 2 + |b|;
    assert t[j..][..2] == "](";
    assert t[1..j] == a;
    forall i | 1 <= i < j
      ensures !StartsWith(t[i..], "](")
    {
      assert t[i..][0] == a[i - 1];
    }
    assert FindClose(t, 1, "](") == Some(j);
    assert t[k..][..1] == ")";
    assert t[j + 2..k] == b;
    forall i | j + 2 <= i < k
      ensures !StartsWith(t[i..], ")")
    {
      assert t[i..][0] == b[i - j - 2];
    }
    assert FindClose(t, j + 2, ")") == Some(k);
  }

  /** The pieces of a link match carry no terminator and hold the `](` inside the brackets. */
  lemma LinkTokenShape(t: string, q: nat, j: nat, k: nat)
    requires q < |t| && t[q] == '['
    requires q + 1 <= j && j + 2 <= k < |t|
    requires t[j] == ']' && t[j + 1] == '(' && t[k] == ')'
    requires NoTerminators(t[q + 1..j]) && NoTerminators(t[j + 2..k])
    ensures NoTerminators(t[q..k + 1]) && Contains(t[q + 1..k], "](")
  {
    var seg := t[q..k + 1];
    forall i | 0 <= i < |seg|
      ensures !IsLineTerminator(seg[i])
    {
      if q + 1 <= q + i < j {
        assert seg[i] == t[q + 1..j][i - 1];
      } else if j + 2 <= q + i < k {
        assert seg[i] == t[j + 2..k][q + i - j - 2];
      }
    }
    assert StartsWith(t[q + 1..k][j - q - 1..], "](");
  }

  predicate HighlightToken(seg: string)
  {
    |seg| >= 4 && StartsWith(seg, "==") && EndsWith(seg, "==")
  }

  predicate BoldToken(seg: string)
  {
    |seg| >= 4 && StartsWith(seg, "**") && EndsWith(seg, "**")
  }

  predicate ItalicToken(seg: string)
  {
    |seg| >= 2 && seg[0] == '*' && seg[|seg| - 1] == '*'
  }

  predicate LinkToken(seg: string)
  {
    |seg| >= 4 && seg[0] == '[' && seg[|seg| - 1] == ')' && NoTerminators(seg) && Contains(seg[1..|seg| - 1], "](")
  }

  /** What a match of the inline pattern looks like. */
  predicate Token(seg: string)
  {
    HighlightToken(seg) || BoldToken(seg) || ItalicToken(seg) || LinkToken(seg)
  }

  /** A match of `d.*?d` for a two-character or one-asterisk delimiter is a token. */
  lemma DelimitedIsToken(t: string, q: nat, e: nat, d: string)
    requires d == "==" || d == "**" || d == "*"
    requires q + 2 * |d| <= e <= |t|
    requires StartsWith(t[q..e], d) && EndsWith(t[q..e], d)
    ensures Token(t[q..e]) && t[q] == d[0]
  {
    var seg := t[q..e];
    assert seg[0] == d[0] == t[q];
    if d == "*" {
      assert seg[|seg| - 1] == seg[|seg| - 1..][0];
      assert ItalicToken(seg);
    } else if d == "==" {
      assert HighlightToken(seg);
    } else {
      assert BoldToken(seg);
    }
  }

  /** A link match is a token. */
  lemma LinkIsToken(t: string, q: nat, e: nat)
    requires q + 4 <= e <= |t| && t[q] == '[' && t[e - 1] == ')'
    requires NoTerminators(t[q..e]) && Contains(t[q + 1..e - 1], "](")
    ensures Token(t[q..e])
  {
    var seg := t[q..e];
    assert |seg| == e - q;
    assert seg[0] == t[q] && seg[|seg| - 1] == t[e - 1];
    SliceOfSlice(t, q, e, 1, e - q - 1);
    assert LinkToken(seg);
  }

  /** The whole pattern at position `q`, alternatives in order: the end of the match, if any. */
  function MatchAt(t: string, q: nat): (r: Option<nat>)
    requires q <= |t|
  {
    match MatchDelimited(t, q, "==")
    case Some(e) => Some(e)
    case None =>
      match MatchDelimited(t, q, "**")
      case Some(e) => Some(e)
      case None =>
        match MatchDelimited(t, q, "*")
        case Some(e) => Some(e)
        case None => MatchLink(t, q)
  }

  /**
   * The alternation never matches the empty string, starts only at `=`,
   * `*` or `[`, and what it matches is a token.
   */
  lemma MatchAtShape(t: string, q: nat)
    requires q <= |t|
    ensures MatchAt(t, q).Some? ==> q < MatchAt(t, q).value <= |t| && Token(t[q..MatchAt(t, q).value])
    ensures MatchAt(t, q).Some? ==> q < |t| && (t[q] == '=' || t[q] == '*' || t[q] == '[')
  {
    var h, b, i := MatchDelimited(t, q, "=="), MatchDelimited(t, q, "**"), MatchDelimited(t, q, "*");
    if h.Some? {
      DelimitedIsToken(t, q, h.value, "==");
    } else if b.Some? {
      DelimitedIsToken(t, q, b.value, "**");
    } else if i.Some? {
      DelimitedIsToken(t, q, i.value, "*");
    } else if MatchLink(t, q).Some? {
      LinkIsToken(t, q, MatchLink(t, q).value);
    }
  }

  /**
   * Highlight, bold and italic are recognised at the start of a text: the
   * delimiter, a run without the delimiter's character or a terminator, and
   * the delimiter again (an italic run must be non-empty, or `**` would be
   * read as the start of bold).
   */
  lemma MarkupRecognised(d: string, x: string, rest: string)
    requires d == "==" || d == "**" || (d == "*" && |x| > 0)
    requires forall i :: 0 <= i < |x| ==> x[i] != d[0] && !IsLineTerminator(x[i])
    ensures MatchAt(d + x + d + rest, 0) == Some(|x| + 2 * |d|)
  {
    var t := d + x + d + rest;
    DelimitedRecognised(d, x, rest);
    if d != "==" {
      assert t[0] == '*';
      assert !StartsWith(t[0..], "==");
    }
    if d == "*" {
      assert t[1] == x[0];
      assert !StartsWith(t[0..], "**");
    }
  }

  /** A link is recognised at the start of a text. */
  lemma LinkAtStartRecognised(a: string, b: string, rest: string)
    requires forall i :: 0 <= i < |a| ==> a[i] != ']' && !IsLineTerminator(a[i])
    requires forall i :: 0 <= i < |b| ==> b[i] != ')' && !IsLineTerminator(b[i])
    ensures MatchAt("[" + a + "](" + b + ")" + rest, 0) == Some(|a| + |b| + 4)
  {
    var t := "[" + a + "](" + b + ")" + rest;
    LinkRecognised(a, b, rest);
    assert t[0] == '[';
    assert !StartsWith(t[0..], "==") && !StartsWith(t[0..], "**") && !StartsWith(t[0..], "*");
  }

  // ===== Splitting =====

  /** The pieces joined back together. */
  function Concat(pieces: seq<string>): string
  {
    if |pieces| == 0 then "" else pieces[0] + Concat(pieces[1..])
  }

  /**
   * `split` from the piece that began at `p`, with the search at `q`:
   * where the pattern matches, the text before it and the match itself are
   * emitted and both restart after the match; the rest is the last piece.
   */
  function SplitFrom(t: string, p: nat, q: nat): (r: seq<string>)
    requires p <= q <= |t|
    ensures |r| % 2 == 1
    ensures Concat(r) == t[p..]
    ensures forall k :: 0 <= k < |r| && k % 2 == 1 ==> Token(r[k])
    decreases |t| - q
  {
    if q == |t| then
      assert Concat([t[p..]]) == t[p..] + "";
      [t[p..]]
    else
      MatchAtShape(t, q);
      match MatchAt(t, q)
      case None => SplitFrom(t, p, q + 1)
      case Some(e) =>
        var rest := SplitFrom(t, e, e);
        SplitStep(t, p, q, e, rest);
        [t[p..q], t[q..e]] + rest
  }

  /** Emitting the text before a match and the match itself keeps the pieces spelling the text. */
  lemma SplitStep(t: string, p: nat, q: nat, e: nat, rest: seq<string>)
    requires p <= q < e <= |t| && Token(t[q..e])
    requires |rest| % 2 == 1 && Concat(rest) == t[e..]
    requires forall k :: 0 <= k < |rest| && k % 2 == 1 ==> Token(rest[k])
    ensures var r := [t[p..q], t[q..e]] + rest;
      && |r| % 2 == 1 && Concat(r) == t[p..]
      && forall k :: 0 <= k < |r| && k % 2 == 1 ==> Token(r[k])
  {
    var r := [t[p..q], t[q..e]] + rest;
    assert r[1..] == [t[q..e]] + rest;
    assert r[1..][1..] == rest;
    SuffixSplit(t, p, q, e);
    forall k | 2 <= k < |r|
      ensures r[k] == rest[k - 2]
    {
    }
  }

  /** The leftmost position at or after `q` where the pattern matches, if any. */
  function FirstMatch(t: string, q: nat): (r: Option<nat>)
    requires q <= |t|
    ensures r.Some? ==> q <= r.value < |t| && MatchAt(t, r.value).Some?
    ensures r.Some? ==> r.value < MatchAt(t, r.value).value <= |t|
    decreases |t| - q
  {
    if q == |t| then None
    else if MatchAt(t, q).Some? then
      MatchAtAdvances(t, q);
      Some(q)
    else
      FirstMatch(t, q + 1)
  }

  /** It is the leftmost match: nothing matches at any position before it, or anywhere when there is none. */
  lemma {:induction false} FirstMatchLeftmost(t: string, q: nat, i: nat)
    requires q <= i <= |t|
    ensures FirstMatch(t, q).Some? && i < FirstMatch(t, q).value ==> MatchAt(t, i).None?
    ensures FirstMatch(t, q).None? ==> MatchAt(t, i).None?
    decreases i - q
  {
    if i == |t| {
      MatchAtAdvances(t, i);
    } else if q < i && MatchAt(t, q).None? {
      FirstMatchLeftmost(t, q + 1, i);
    }
  }

  /**
   * Where the split cuts: the first piece runs up to the leftmost match
   * (or to the end of the text if there is none), the second piece is that
   * match, and the split starts afresh after it.
   */
  lemma {:induction false} SplitFromCuts(t: string, p: nat, q: nat)
    requires p <= q <= |t|
    ensures SplitFrom(t, p, q) == match FirstMatch(t, q)
      case None => [t[p..]]
      case Some(i) =>
        var e := MatchAt(t, i).value;
        [t[p..i], t[i..e]] + SplitFrom(t, e, e)
    decreases |t| - q
  {
    if q == |t| {
      assert SplitFrom(t, p, q) == [t[p..]];
    } else if MatchAt(t, q).None? {
      SplitFromCuts(t, p, q + 1);
      SkipUnmatched(t, p, q);
    } else {
      MatchAtAdvances(t, q);
      CutPieces(t, p, q, MatchAt(t, q).value);
    }
  }

  /** Proof step: where nothing matches at the search position, the search moves on by one. */
  lemma SkipUnmatched(t: string, p: nat, q: nat)
    requires p <= q < |t| && MatchAt(t, q).None?
    ensures SplitFrom(t, p, q) == SplitFrom(t, p, q + 1)
  {
  }

  /** Proof step: a match ends after it starts. */
  lemma MatchAtAdvances(t: string, q: nat)
    requires q <= |t|
    ensures MatchAt(t, q).Some? ==> q < MatchAt(t, q).value <= |t|
  {
    MatchAtShape(t, q);
  }

  /** Proof step: a match at the search position is cut out as the second piece. */
  lemma CutPieces(t: string, p: nat, q: nat, e: nat)
    requires p <= q < e <= |t| && MatchAt(t, q) == Some(e)
    ensures SplitFrom(t, p, q) == [t[p..q], t[q..e]] + SplitFrom(t, e, e)
  {
  }

  /** `text.split(regex)`: plain pieces at even indices, matches at odd ones. */
  function Split(t: string): (r: seq<string>)
  {
    SplitFrom(t, 0, 0)
  }

  /** Joining the pieces gives back the text: splitting loses and adds nothing. */
  lemma SplitRoundTrip(t: string)
    ensures Concat(Split(t)) == t
    ensures |Split(t)| % 2 == 1
    ensures forall k :: 0 <= k < |Split(t)| && k % 2 == 1 ==> Token(Split(t)[k])
  {
    assert t[0..] == t;
  }

  /** Text with no `=`, `*` or `[` is not split at all. */
  lemma {:induction false} SplitWithoutMarkup(t: string, q: nat)
    requires q <= |t|
    requires forall i :: 0 <= i < |t| ==> t[i] != '=' && t[i] != '*' && t[i] != '['
    ensures SplitFrom(t, 0, q) == [t]
    decreases |t| - q
  {
    if q < |t| {
      MatchAtShape(t, q);
      SplitWithoutMarkup(t, q + 1);
    } else {
      assert t[0..] == t;
    }
  }

  // ===== Classifying pieces =====

  /**
   * `^\[(.*?)\]\((.*?)\)$` on a piece: the text and the url of a link that
   * spans the whole piece. The first `](` is the only candidate: a later one
   * lies beyond any terminator that made the first fail.
   */
  function LinkParts(part: string): (r: Option<(string, string)>)
    ensures r.Some? ==> part == "[" + r.value.0 + "](" + r.value.1 + ")"
    ensures r.Some? ==> NoTerminators(r.value.0) && NoTerminators(r.value.1)
  {
    if |part| >= 1 && part[0] == '[' && part[|part| - 1] == ')' then
      match FindClose(part, 1, "](")
      case None => None
      case Some(j) =>
        if j + 2 <= |part| - 1 && NoTerminators(part[j + 2..|part| - 1]) then
          var text, url := part[1..j], part[j + 2..|part| - 1];
          assert part == [part[0]] + text + part[j..j + 2] + url + [part[|part| - 1]];
          Some((text, url))
        else None
    else None
  }

  /** What one piece renders as: a link, then highlight, bold, italic, else plain text. */
  function Classify(part: string): (r: Inline)
    ensures r.Plain? ==> r.text == part
  {
    match LinkParts(part)
    case Some((text, url)) => Link(text, url)
    case None =>
      if StartsWith(part, "==") && EndsWith(part, "==") then Highlight(SliceInner(part, 2))
      else if StartsWith(part, "**") && EndsWith(part, "**") then Bold(SliceInner(part, 2))
      else if StartsWith(part, "*") && EndsWith(part, "*") then Italic(SliceInner(part, 1))
      else Plain(part)
  }

  /** A piece wrapped in `==` renders as highlighted text: the text between the delimiters. */
  lemma HighlightRendered(x: string)
    ensures Classify("==" + x + "==") == Highlight(x)
  {
    var part := "==" + x + "==";
    assert part[..2] == "==" && part[|part| - 2..] == "==";
    assert part[2..|part| - 2] == x;
  }

  /** A piece wrapped in `**` renders as bold text: the text between the delimiters. */
  lemma BoldRendered(x: string)
    ensures Classify("**" + x + "**") == Bold(x)
  {
    var part := "**" + x + "**";
    assert part[..2] == "**" && part[|part| - 2..] == "**";
    assert part[2..|part| - 2] == x;
  }

  /**
   * A piece wrapped in single `*` renders as italic text, unless the text
   * inside is empty or itself starts and ends with `*` (then the bold test,
   * made first, takes the piece).
   */
  lemma ItalicRendered(x: string)
    requires |x| > 0 && !(StartsWith(x, "*") && EndsWith(x, "*"))
    ensures Classify("*" + x + "*") == Italic(x)
  {
    var part := "*" + x + "*";
    assert part[..1] == "*" && part[|part| - 1..] == "*";
    assert part[1..|part| - 1] == x;
    assert !StartsWith(part, "==");
    assert part[..2][1] == x[0] && x[..1] == [x[0]];
    assert part[|part| - 2..][0] == x[|x| - 1] && x[|x| - 1..] == [x[|x| - 1]];
  }

  /** `**` on its own renders as empty bold text, not as empty italics. */
  lemma EmptyItalicIsBold()
    ensures Classify("**") == Bold("")
  {
    assert "**"[..2] == "**";
  }

  /** `formatText`: the pieces of the split, each classified. */
  function FormatText(text: string): (r: seq<Inline>)
    ensures |r| == |Split(text)|
    ensures |r| % 2 == 1
  {
    var pieces := Split(text);
    seq(|pieces|, i requires 0 <= i < |pieces| => Classify(pieces[i]))
  }

  /** A link token is read back as a link: its first `](` is followed by a terminator-free url. */
  lemma LinkTokenParses(seg: string)
    requires LinkToken(seg)
    ensures LinkParts(seg).Some?
  {
    var inner := seg[1..|seg| - 1];
    var w :| 0 <= w <= |inner| && StartsWith(inner[w..], "](");
    SliceOfSlice(seg, 1, |seg| - 1, w, w + 2);
    assert seg[w + 1..][..2] == seg[w + 1..w + 3];
    NoTerminatorsSlice(seg, 1, w + 1);
    var j := FindClose(seg, 1, "](").value;
    NoTerminatorsSlice(seg, j + 2, |seg| - 1);
  }

  /** Every match of the pattern is rendered as markup, never as plain text. */
  lemma TokenIsMarkup(seg: string)
    requires Token(seg)
    ensures !Classify(seg).Plain?
  {
    if LinkToken(seg) {
      LinkTokenParses(seg);
    } else if ItalicToken(seg) {
      assert StartsWith(seg, "*");
      assert EndsWith(seg, "*");
    }
  }

  /** Every odd piece of formatted text is markup; the pieces still spell the text. */
  lemma FormatTextMarksTokens(text: string)
    ensures forall k :: 0 <= k < |FormatText(text)| && k % 2 == 1 ==> !FormatText(text)[k].Plain?
  {
    SplitRoundTrip(text);
    forall k | 0 <= k < |FormatText(text)| && k % 2 == 1
      ensures !FormatText(text)[k].Plain?
    {
      TokenIsMarkup(Split(text)[k]);
    }
  }

  /** Text without markup characters is rendered as itself, in one plain piece. */
  lemma PlainTextUnchanged(text: string)
    requires forall i :: 0 <= i < |text| ==> text[i] != '=' && text[i] != '*' && text[i] != '['
    ensures FormatText(text) == [Plain(text)]
  {
    SplitWithoutMarkup(text, 0);
    if |text| > 0 {
      assert !StartsWith(text, "*") && !StartsWith(text, "==") && !StartsWith(text, "**");
    }
  }

  /** A link written out in full is read back as that link. */
  lemma LinkRoundTrip(text: string, url: string)
    requires NoTerminators(text) && NoTerminators(url)
    requires !Contains(text, "](")
    ensures Classify("[" + text + "](" + url + ")") == Link(text, url)
  {
    var part := "[" + text + "](" + url + ")";
    var j := |text| + 1;
    assert part[1..j] == text;
    assert part[j..j + 2] == "](";
    assert part[j + 2..|part| - 1] == url;
    forall k | 1 <= k < j
      ensures !StartsWith(part[k..], "](")
    {
      if k + 1 < j {
        assert part[k..][..2] == text[k - 1..][..2];
      } else {
        assert part[k + 1] == ']';
      }
    }
    assert StartsWith(part[j..], "](");
    assert NoTerminators(part[1..j]);
    assert FindClose(part, 1, "](") == Some(j);
  }

  /** A lone asterisk satisfies the italic test on both ends and is shown as empty emphasis. */
  lemma LoneAsteriskVanishes()
    ensures FormatText("*") == [Italic("")]
  {
    var t := "*";
    assert MatchDelimited(t, 0, "==").None?;
    assert MatchDelimited(t, 0, "**").None?;
    assert FindClose(t, 1, "*").None?;
    assert MatchAt(t, 0).None?;
    assert SplitFrom(t, 0, 0) == ["*"];
    assert LinkParts("*").None?;
  }

  // ===== Lines =====

  /** The lines joined with a newline between each two. */
  function JoinLines(lines: seq<string>): string
    requires |lines| >= 1
  {
    if |lines| == 1 then lines[0] else lines[0] + "\n" + JoinLines(lines[1..])
  }

  /** `content.split('\n')`. */
  function SplitLines(s: string): (r: seq<string>)
    ensures |r| >= 1
    ensures forall i :: 0 <= i < |r| ==> '\n' !in r[i]
    ensures JoinLines(r) == s
  {
    if |s| == 0 then [""]
    else
      var rest := SplitLines(s[1..]);
      if s[0] == '\n' then
        assert ([""] + rest)[1..] == rest;
        assert s == "" + "\n" + s[1..];
        [""] + rest
      else
        var r := [[s[0]] + rest[0]] + rest[1..];
        assert r[1..] == rest[1..];
        assert s == [s[0]] + s[1..];
        r
  }

  lemma SplitAfterNewline(s: string)
    ensures SplitLines("\n" + s) == [""] + SplitLines(s)
  {
    assert ("\n" + s)[1..] == s;
  }

  lemma SplitAfterChar(c: char, s: string)
    requires c != '\n'
    ensures SplitLines([c] + s) == [[c] + SplitLines(s)[0]] + SplitLines(s)[1..]
  {
    assert ([c] + s)[1..] == s;
  }

  lemma TailHasNoNewline(a: string)
    requires |a| > 0 && '\n' !in a
    ensures '\n' !in a[1..]
  {
    assert forall k :: 0 <= k < |a[1..]| ==> a[1..][k] == a[k + 1];
  }

  /** A line without a newline, then a newline, splits off as the first line. */
  lemma {:induction false} SplitAfterLine(a: string, rest: string)
    requires '\n' !in a
    ensures SplitLines(a + "\n" + rest) == [a] + SplitLines(rest)
    decreases |a|
  {
    if |a| == 0 {
      assert a + "\n" + rest == "\n" + rest;
      SplitAfterNewline(rest);
    } else {
      TailHasNoNewline(a);
      var tail := a[1..] + "\n" + rest;
      SplitAfterLine(a[1..], rest);
      var r := SplitLines(tail);
      assert r[0] == a[1..] && r[1..] == SplitLines(rest);
      SplitAfterChar(a[0], tail);
      assert [a[0]] + a[1..] == a;
      assert a + "\n" + rest == [a[0]] + tail;
      assert SplitLines(a + "\n" + rest) == [[a[0]] + r[0]] + r[1..];
    }
  }

  /** Splitting joined lines that hold no newline gives the lines back. */
  lemma {:induction false} JoinThenSplit(lines: seq<string>)
    requires |lines| >= 1
    requires forall i :: 0 <= i < |lines| ==> '\n' !in lines[i]
    ensures SplitLines(JoinLines(lines)) == lines
    decreases |lines|
  {
    if |lines| == 1 {
      NoNewlineIsOneLine(lines[0]);
    } else {
      JoinThenSplit(lines[1..]);
      SplitAfterLine(lines[0], JoinLines(lines[1..]));
      assert lines == [lines[0]] + lines[1..];
    }
  }

  lemma {:induction false} NoNewlineIsOneLine(s: string)
    requires '\n' !in s
    ensures SplitLines(s) == [s]
    decreases |s|
  {
    if |s| > 0 {
      NoNewlineIsOneLine(s[1..]);
      assert [s[0]] + s[1..] == s;
    }
  }

  function CountNewlines(s: string): nat
  {
    if |s| == 0 then 0 else (if s[0] == '\n' then 1 else 0) + CountNewlines(s[1..])
  }

  /** There is one line more than there are newlines. */
  lemma {:induction false} LineCount(s: string)
    ensures |SplitLines(s)| == CountNewlines(s) + 1
  {
    if |s| > 0 {
      LineCount(s[1..]);
    }
  }

  // ===== Lines to blocks =====

  predicate IsHeadingLine(line: string)
  {
    StartsWith(line, "# ") || StartsWith(line, "## ") || StartsWith(line, "### ")
  }

  predicate IsListLine(line: string)
  {
    StartsWith(Trim(line), "- ") || StartsWith(Trim(line), "* ")
  }

  /** `parseLine`: headings by their exact prefix, list items and blank lines after trimming. */
  function ParseLine(line: string): (b: Block)
    ensures b.Spacer? <==> Trim(line) == ""
  {
    HeadingNotBlank(line);
    if StartsWith(line, "# ") then H1(ReplaceFirst(line, "# "))
    else if StartsWith(line, "## ") then H2(ReplaceFirst(line, "## "))
    else if StartsWith(line, "### ") then H3(ReplaceFirst(line, "### "))
    else ParseBodyLine(line)
  }

  /** A line that is not a heading: a list item, a spacer or a paragraph. */
  function ParseBodyLine(line: string): (b: Block)
    ensures b.ListItem? || b.Spacer? || b.Paragraph?
    ensures b.Spacer? <==> !IsListLine(line) && Trim(line) == ""
  {
    if StartsWith(Trim(line), "- ") then ListItem(FormatText(ReplaceFirst(Trim(line), "- ")))
    else if StartsWith(Trim(line), "* ") then ListItem(FormatText(ReplaceFirst(Trim(line), "* ")))
    else if |Trim(line)| == 0 then Spacer
    else Paragraph(FormatText(line))
  }

  /** A line that starts with a non-space character is not blank. */
  lemma NonSpaceStartNotBlank(s: string)
    requires |s| > 0 && !IsJsSpace(s[0])
    ensures Trim(s) != ""
  {
    assert TrimStart(s) == s;
    assert |TrimEnd(s)| > 0;
  }

  /** A heading line starts with `#`, so it is never blank. */
  lemma HeadingNotBlank(line: string)
    ensures IsHeadingLine(line) ==> Trim(line) != ""
  {
    if IsHeadingLine(line) {
      assert line[0] == '#';
      NonSpaceStartNotBlank(line);
    }
  }

  lemma H1Line(line: string)
    requires StartsWith(line, "# ")
    ensures ParseLine(line) == H1(line[2..])
  {
    ReplaceFirstPrefix(line, "# ");
  }

  lemma H2Line(line: string)
    requires StartsWith(line, "## ")
    ensures ParseLine(line) == H2(line[3..])
  {
    ReplaceFirstPrefix(line, "## ");
    assert !StartsWith(line, "# ") by { assert line[1] == '#'; }
  }

  lemma H3Line(line: string)
    requires StartsWith(line, "### ")
    ensures ParseLine(line) == H3(line[4..])
  {
    ReplaceFirstPrefix(line, "### ");
    assert !StartsWith(line, "# ") by { assert line[1] == '#'; }
    assert !StartsWith(line, "## ") by { assert line[2] == '#'; }
  }

  /** At most one heading marker fits the start of a line. */
  lemma HeadingMarkersExclusive(line: string)
    ensures StartsWith(line, "# ") ==> !StartsWith(line, "## ") && !StartsWith(line, "### ")
    ensures StartsWith(line, "## ") ==> !StartsWith(line, "### ")
  {
    if StartsWith(line, "# ") {
      assert line[1] == ' ';
    }
    if StartsWith(line, "## ") {
      assert line[2] == ' ';
    }
  }

  lemma NotHeadingLine(line: string)
    requires !IsHeadingLine(line)
    ensures ParseLine(line) == ParseBodyLine(line)
  {
  }

  /** A heading keeps the line after its marker, unformatted. */
  lemma ParseLineHeadings(line: string)
    ensures ParseLine(line).H1? <==> StartsWith(line, "# ")
    ensures ParseLine(line).H1? ==> ParseLine(line).text == line[2..]
    ensures ParseLine(line).H2? <==> StartsWith(line, "## ")
    ensures ParseLine(line).H2? ==> ParseLine(line).text == line[3..]
    ensures ParseLine(line).H3? <==> StartsWith(line, "### ")
    ensures ParseLine(line).H3? ==> ParseLine(line).text == line[4..]
  {
    HeadingMarkersExclusive(line);
    if StartsWith(line, "# ") {
      H1Line(line);
    } else if StartsWith(line, "## ") {
      H2Line(line);
    } else if StartsWith(line, "### ") {
      H3Line(line);
    } else {
      NotHeadingLine(line);
    }
  }

  /** The body rules: bullet lines become list items, other non-blank lines paragraphs. */
  lemma ParseBodyLineCases(line: string)
    ensures ParseBodyLine(line).ListItem? <==> IsListLine(line)
    ensures ParseBodyLine(line).ListItem? ==> ParseBodyLine(line).segments == FormatText(Trim(line)[2..])
    ensures ParseBodyLine(line).Paragraph? <==> !IsListLine(line) && Trim(line) != ""
    ensures ParseBodyLine(line).Paragraph? ==> ParseBodyLine(line).segments == FormatText(line)
  {
    var trimmed := Trim(line);
    if StartsWith(trimmed, "- ") {
      ReplaceFirstPrefix(trimmed, "- ");
    } else if StartsWith(trimmed, "* ") {
      ReplaceFirstPrefix(trimmed, "* ");
    }
  }

  /**
   * A list item formats the trimmed line after its bullet; a paragraph
   * formats the whole line, untrimmed.
   */
  lemma ParseLineBody(line: string)
    ensures ParseLine(line).ListItem? <==> !IsHeadingLine(line) && IsListLine(line)
    ensures ParseLine(line).ListItem? ==> ParseLine(line).segments == FormatText(Trim(line)[2..])
    ensures ParseLine(line).Paragraph? <==> !IsHeadingLine(line) && !IsListLine(line) && Trim(line) != ""
    ensures ParseLine(line).Paragraph? ==> ParseLine(line).segments == FormatText(line)
  {
    if IsHeadingLine(line) {
      ParseLineHeadings(line);
    } else {
      NotHeadingLine(line);
      ParseBodyLineCases(line);
    }
  }

  /** The blocks of the content, one per line in order. */
  function Render(content: string): (r: seq<Block>)
    ensures |r| == CountNewlines(content) + 1
  {
    var lines := SplitLines(content);
    LineCount(content);
    seq(|lines|, i requires 0 <= i < |lines| => ParseLine(lines[i]))
  }

  /** Line i of the content is rendered as block i. */
  lemma RenderLine(content: string, i: nat)
    requires i < |SplitLines(content)|
    ensures |Render(content)| == |SplitLines(content)|
    ensures Render(content)[i] == ParseLine(SplitLines(content)[i])
  {
  }
}

=== FILE: retry.dfy ===
/**
 * The retry wrapper around every backend call: a failure that signals
 * transient unavailability is retried after a wait that doubles each time,
 * any other failure (or one that arrives when no retries are left) is
 * passed on unchanged.
 *
 * The operation is modelled by its outcome on each attempt: `op(k)` is what
 * the k-th call (counting from 0) returns or throws. Waits are recorded
 * instead of performed.
 */
module Retry {
  import opened Types
  import opened Strings

  /** What a failed backend call carries: an HTTP-like status (if any) and a message ("" if none). */
  datatype ApiError = ApiError(status: Option<int>, message: string)

  datatype Outcome<+T> = Success(value: T) | Failure(error: ApiError)

  /** The result of the wrapper, with the waits it performed and the number of calls it made. */
  datatype RetryRun<+T> = RetryRun(outcome: Outcome<T>, waits: seq<int>, attempts: nat)

  const DefaultRetries: nat := 3
  const DefaultDelay: int := 2000

  /** Status 503, or a (non-empty) message naming 503, a socket read failure or UNAVAILABLE. */
  predicate IsRetryable(e: ApiError)
  {
    e.status == Some(503) ||
    (e.message != "" &&
      (Contains(e.message, "503") ||
       Contains(e.message, "Socket read failure") ||
       Contains(e.message, "UNAVAILABLE")))
  }

  predicate IsRetryableFailure<T>(o: Outcome<T>)
  {
    o.Failure? && IsRetryable(o.error)
  }

  /** 2 to the power `n`. */
  function Pow2(n: nat): (r: int)
    ensures r >= 1
  {
    if n == 0 then 1 else 2 * Pow2(n - 1)
  }

  /**
   * The wrapper as the source writes it: recursion on the remaining retry
   * budget, starting at attempt `k`.
   */
  function RetryFrom<T>(op: nat -> Outcome<T>, k: nat, retries: nat, delay: int): RetryRun<T>
    decreases retries
  {
    match op(k)
    case Success(_) => RetryRun(op(k), [], k + 1)
    case Failure(e) =>
      if retries > 0 && IsRetryable(e) then
        var rest := RetryFrom(op, k + 1, retries - 1, delay * 2);
        RetryRun(rest.outcome, [delay] + rest.waits, rest.attempts)
      else
        RetryRun(op(k), [], k + 1)
  }

  function RetryOperation<T>(op: nat -> Outcome<T>, retries: nat, delay: int): RetryRun<T>
  {
    RetryFrom(op, 0, retries, delay)
  }

  /**
   * What the wrapper does, in full: it calls the operation until the first
   * attempt that is not a retryable failure or until the budget is spent,
   * returns that attempt's outcome unchanged, and waits delay, 2·delay,
   * 4·delay, … before the second, third, fourth, … call.
   */
  lemma {:induction false} RetryFromCharacterised<T>(op: nat -> Outcome<T>, k: nat, retries: nat, delay: int)
    ensures var run := RetryFrom(op, k, retries, delay);
      && k + 1 <= run.attempts <= k + retries + 1
      && run.outcome == op(run.attempts - 1)
      && (forall i :: k <= i < run.attempts - 1 ==> IsRetryableFailure(op(i)))
      && (run.attempts <= k + retries ==> !IsRetryableFailure(op(run.attempts - 1)))
      && |run.waits| == run.attempts - 1 - k
      && (forall j :: 0 <= j < |run.waits| ==> run.waits[j] == delay * Pow2(j))
    decreases retries
  {
    var run := RetryFrom(op, k, retries, delay);
    if op(k).Failure? && retries > 0 && IsRetryable(op(k).error) {
      RetryFromCharacterised(op, k + 1, retries - 1, delay * 2);
      var rest := RetryFrom(op, k + 1, retries - 1, delay * 2);
      assert run.waits == [delay] + rest.waits;
      DoubledWaits(delay, rest.waits);
    }
  }

  /** Waiting delay first, then a schedule that starts at 2·delay, keeps doubling from delay. */
  lemma DoubledWaits(delay: int, later: seq<int>)
    requires forall j :: 0 <= j < |later| ==> later[j] == (delay * 2) * Pow2(j)
    ensures forall j :: 0 <= j < |[delay] + later| ==> ([delay] + later)[j] == delay * Pow2(j)
  {
    forall j | 1 <= j < |[delay] + later|
      ensures ([delay] + later)[j] == delay * Pow2(j)
    {
      assert ([delay] + later)[j] == later[j - 1] == (delay * 2) * Pow2(j - 1);
    }
  }

  lemma RetryCharacterised<T>(op: nat -> Outcome<T>, retries: nat, delay: int)
    ensures var run := RetryOperation(op, retries, delay);
      && 1 <= run.attempts <= retries + 1
      && run.outcome == op(run.attempts - 1)
      && (forall i :: 0 <= i < run.attempts - 1 ==> IsRetryableFailure(op(i)))
      && (run.attempts <= retries ==> !IsRetryableFailure(op(run.attempts - 1)))
      && |run.waits| == run.attempts - 1
      && (forall j :: 0 <= j < |run.waits| ==> run.waits[j] == delay * Pow2(j))
  {
    RetryFromCharacterised(op, 0, retries, delay);
  }

  /** The first success within the budget is returned, after one wait per earlier failure. */
  lemma FirstSuccessReturned<T>(op: nat -> Outcome<T>, retries: nat, delay: int, n: nat)
    requires n <= retries
    requires op(n).Success?
    requires forall i :: 0 <= i < n ==> IsRetryableFailure(op(i))
    ensures RetryOperation(op, retries, delay).outcome == op(n)
    ensures RetryOperation(op, retries, delay).attempts == n + 1
    ensures |RetryOperation(op, retries, delay).waits| == n
  {
    RetryCharacterised(op, retries, delay);
  }

  /** When every attempt fails retryably, there are exactly retries + 1 calls and the last error is thrown. */
  lemma ExhaustedAfterRetriesPlusOne<T>(op: nat -> Outcome<T>, retries: nat, delay: int)
    requires forall i :: 0 <= i <= retries ==> IsRetryableFailure(op(i))
    ensures RetryOperation(op, retries, delay).attempts == retries + 1
    ensures RetryOperation(op, retries, delay).outcome == op(retries)
    ensures RetryOperation(op, retries, delay).outcome.Failure?
  {
    RetryCharacterised(op, retries, delay);
  }

  /** A failure that is not retryable is thrown unchanged at once, without waiting. */
  lemma FatalFailureRethrown<T>(op: nat -> Outcome<T>, retries: nat, delay: int)
    requires op(0).Failure? && !IsRetryable(op(0).error)
    ensures RetryOperation(op, retries, delay) == RetryRun(op(0), [], 1)
  {
  }

  /** With the defaults, two 503 failures and then a success give the waits 2000 and 4000. */
  lemma DefaultScheduleExample<T>(op: nat -> Outcome<T>, x: T)
    requires op(0) == Failure(ApiError(Some(503), "")) && op(1) == Failure(ApiError(Some(503), ""))
    requires op(2) == Success(x)
    ensures RetryOperation(op, DefaultRetries, DefaultDelay) == RetryRun(Success(x), [2000, 4000], 3)
  {
  }
}

=== FILE: session.dfy ===
/**
 * The session controller of the study companion: the state the page keeps
 * (view, uploaded files, extracted topics, the selected topic and its
 * reading guide, the diagram, busy flags, the loading-message index) and
 * the handlers that change it.
 *
 * A handler that awaits a backend call is split at the `await`: `Begin…`
 * runs the state updates before the call, `Complete…` those after it, and
 * the method named after the handler runs both around the service call.
 * Between the two halves the page stays interactive, so the halves are
 * also transitions of their own. Every transition is specified by a pure
 * function on `State`, and the page's promises are lemmas about those.
 */
module Session {
  import opened Types
  import opened Strings
  import opened Retry
  import opened GeminiService

  const LoadErrorMessage := "Error loading content. Please try again."

  /** Everything the page keeps, as one value. */
  datatype State = State(
    view: ViewState,
    files: seq<UploadedFile>,
    topics: seq<Topic>,
    isAnalyzing: bool,
    selectedTopicId: Option<string>,
    topicContent: string,
    isGeneratingContent: bool,
    isSearchingWeb: bool,
    diagramContent: Option<string>,
    isGeneratingDiagram: bool,
    noDiagramAvailable: bool,
    loadingMsgIndex: nat,
    copyFeedback: bool)

  const Initial := State(Upload, [], [], false, None, "", false, false, None, false, false, 0, false)

  /** The loading message shown is always one of the messages. */
  predicate ValidState(s: State)
  {
    s.loadingMsgIndex < |LoadingMessages|
  }

  // ===== File list =====

  /** The files of `fs` whose id is not `id`, in their order (`filter`). */
  function WithoutId(fs: seq<UploadedFile>, id: string): (r: seq<UploadedFile>)
    ensures |r| <= |fs|
    ensures forall f :: f in r <==> f in fs && f.id != id
  {
    if |fs| == 0 then []
    else (if fs[0].id != id then [fs[0]] else []) + WithoutId(fs[1..], id)
  }

  /** Removal works file by file: the files kept stay in their relative order. */
  lemma {:induction false} WithoutIdConcat(a: seq<UploadedFile>, b: seq<UploadedFile>, id: string)
    ensures WithoutId(a + b, id) == WithoutId(a, id) + WithoutId(b, id)
  {
    if |a| > 0 {
      assert (a + b)[1..] == a[1..] + b;
      WithoutIdConcat(a[1..], b, id);
    } else {
      assert a + b == b;
    }
  }

  /** Removing an id no file has changes nothing. */
  lemma {:induction false} WithoutAbsentId(fs: seq<UploadedFile>, id: string)
    requires forall i :: 0 <= i < |fs| ==> fs[i].id != id
    ensures WithoutId(fs, id) == fs
  {
    if |fs| > 0 {
      WithoutAbsentId(fs[1..], id);
      assert [fs[0]] + fs[1..] == fs;
    }
  }

  /** `files.some(f => f.type === MAIN)`. */
  predicate HasMainFile(fs: seq<UploadedFile>)
  {
    exists i :: 0 <= i < |fs| && fs[i].docType == MAIN
  }

  /** Analysis is possible exactly when filtering for main notes leaves something to send. */
  lemma HasMainFileIff(fs: seq<UploadedFile>)
    ensures HasMainFile(fs) <==> |OfType(fs, MAIN)| > 0
  {
    OfTypeEmpty(fs, MAIN);
  }

  // ===== Topics =====

  /** The position of the first topic with the given id (`find`). */
  function FindIndex(topics: seq<Topic>, id: string, from: nat): (r: Option<nat>)
    requires from <= |topics|
    ensures r.Some? ==> from <= r.value < |topics| && topics[r.value].id == id
    ensures r.Some? ==> forall j :: from <= j < r.value ==> topics[j].id != id
    ensures r.None? ==> forall j :: from <= j < |topics| ==> topics[j].id != id
    decreases |topics| - from
  {
    if from == |topics| then None
    else if topics[from].id == id then Some(from)
    else FindIndex(topics, id, from + 1)
  }

  function FindTopic(topics: seq<Topic>, id: string): (r: Option<Topic>)
    ensures r.Some? ==> r.value in topics && r.value.id == id
    ensures r.None? <==> forall j :: 0 <= j < |topics| ==> topics[j].id != id
  {
    match FindIndex(topics, id, 0)
    case None => None
    case Some(i) => Some(topics[i])
  }

  /** A selection counts only when its id is a non-empty string (`!selectedTopicId` is false). */
  predicate HasSelection(s: State)
  {
    s.selectedTopicId.Some? && s.selectedTopicId.value != ""
  }

  /** The topic a web search or a diagram is requested for, if any. */
  function SelectedTopic(s: State): (r: Option<Topic>)
    ensures r.Some? ==> HasSelection(s) && r.value in s.topics && Some(r.value.id) == s.selectedTopicId
  {
    if HasSelection(s) then FindTopic(s.topics, s.selectedTopicId.value) else None
  }

  // ===== Transitions =====

  function Uploaded(s: State, newFiles: seq<UploadedFile>): State
  {
    s.(files := s.files + newFiles)
  }

  function Removed(s: State, fileId: string): State
  {
    s.(files := WithoutId(s.files, fileId))
  }

  function AnalyzeStarted(s: State): State
  {
    s.(isAnalyzing := true)
  }

  /** A rejected extraction only clears the busy flag; the alert it raises is not state. */
  function AnalyzeFinished(s: State, result: Result<seq<Topic>>): State
  {
    match result
    case Ok(topics) => s.(topics := topics, view := Dashboard, isAnalyzing := false)
    case Err(_) => s.(isAnalyzing := false)
  }

  function TopicOpened(s: State, topic: Topic): State
  {
    s.(selectedTopicId := Some(topic.id), view := Study, topicContent := "",
       diagramContent := None, noDiagramAvailable := false, isGeneratingContent := true)
  }

  function TopicLoaded(s: State, result: Result<string>): State
  {
    match result
    case Ok(markdown) => s.(topicContent := markdown, isGeneratingContent := false)
    case Err(_) => s.(topicContent := LoadErrorMessage, isGeneratingContent := false)
  }

  function SearchStarted(s: State): State
  {
    s.(isSearchingWeb := true)
  }

  function SearchFinished(s: State, result: Result<string>): State
  {
    match result
    case Ok(links) => s.(topicContent := s.topicContent + links, isSearchingWeb := false)
    case Err(_) => s.(isSearchingWeb := false)
  }

  function DiagramStarted(s: State): State
  {
    s.(isGeneratingDiagram := true, noDiagramAvailable := false)
  }

  function DiagramFinished(s: State, result: Result<string>): State
  {
    match result
    case Ok(d) =>
      if d == NoDiagram then s.(noDiagramAvailable := true, isGeneratingDiagram := false)
      else s.(diagramContent := Some(d), isGeneratingDiagram := false)
    case Err(_) => s.(isGeneratingDiagram := false)
  }

  /** One tick of the two-second timer, which only runs while something is loading. */
  function Rotated(s: State): State
  {
    if s.isAnalyzing || s.isGeneratingContent then
      s.(loadingMsgIndex := (s.loadingMsgIndex + 1) % |LoadingMessages|)
    else s
  }

  // ===== What the page offers =====

  /** The analyze button is enabled (App.tsx, the button's `disabled`). */
  predicate AnalyzeEnabled(s: State)
  {
    HasMainFile(s.files) && !s.isAnalyzing
  }

  /** The reading guide with its action bar is on screen. */
  predicate GuideShown(s: State)
  {
    s.view == Study && !s.isGeneratingContent
  }

  /** The flowchart button is on screen: no diagram (null or "") and no "no diagram" note. */
  predicate DiagramButtonShown(s: State)
  {
    GuideShown(s) && (s.diagramContent.None? || s.diagramContent.value == "") && !s.noDiagramAvailable
  }

  /** The web-search button is on screen: the guide has no live-resources section yet. */
  predicate WebSearchOffered(s: State)
  {
    GuideShown(s) && !Contains(s.topicContent, WebResourcesMarker)
  }

  /** The flowchart button is on screen and not disabled by a diagram request in flight. */
  predicate DiagramEnabled(s: State)
  {
    DiagramButtonShown(s) && !s.isGeneratingDiagram
  }

  /** The web-search button is on screen and not disabled by a search in flight. */
  predicate WebSearchEnabled(s: State)
  {
    WebSearchOffered(s) && !s.isSearchingWeb
  }

  // ===== Properties of the transitions =====

  /** New files are appended: every upload card lists its old files, then the new ones. */
  lemma UploadKeepsOrder(s: State, newFiles: seq<UploadedFile>, t: DocType)
    ensures OfType(Uploaded(s, newFiles).files, t) == OfType(s.files, t) + OfType(newFiles, t)
    ensures HasMainFile(s.files) ==> HasMainFile(Uploaded(s, newFiles).files)
  {
    OfTypeConcat(s.files, newFiles, t);
    if HasMainFile(s.files) {
      var i :| 0 <= i < |s.files| && s.files[i].docType == MAIN;
      assert Uploaded(s, newFiles).files[i] == s.files[i];
    }
  }

  /** Analysis ends idle; success replaces the topics and opens the dashboard, failure changes neither. */
  lemma AnalyzeOutcome(s: State, result: Result<seq<Topic>>)
    ensures !AnalyzeEnabled(AnalyzeStarted(s))
    ensures var t := AnalyzeFinished(AnalyzeStarted(s), result);
      && !t.isAnalyzing
      && t.files == s.files
      && (result.Ok? ==> t.topics == result.value && t.view == Dashboard)
      && (result.Err? ==> t.topics == s.topics && t.view == s.view)
  {
  }

  /**
   * Opening a topic clears the guide and the diagram state, and once the
   * synthesis settles the guide is its text or the load error, never empty.
   */
  lemma TopicSelectOutcome(s: State, topic: Topic, apiKey: string, backend: Backend)
    ensures var t := TopicOpened(s, topic);
      t.topicContent == "" && t.diagramContent.None? && !t.noDiagramAvailable && t.view == Study
    ensures var t := TopicLoaded(TopicOpened(s, topic), SynthesisReply(apiKey, backend));
      && t.selectedTopicId == Some(topic.id)
      && GuideShown(t)
      && t.topicContent != ""
      && (apiKey == "" ==> t.topicContent == LoadErrorMessage)
      && (apiKey != "" ==> t.topicContent == SynthesisResult(RetryOperation(backend, DefaultRetries, DefaultDelay).outcome))
  {
  }

  /** A web search only ever adds to the end of the guide. */
  lemma SearchAppends(s: State, result: Result<string>)
    ensures var t := SearchFinished(SearchStarted(s), result);
      && StartsWith(t.topicContent, s.topicContent)
      && (result.Ok? ==> t.topicContent == s.topicContent + result.value)
      && (result.Err? ==> t.topicContent == s.topicContent)
      && !t.isSearchingWeb
  {
    var t := SearchFinished(SearchStarted(s), result);
    assert t.topicContent[..|s.topicContent|] == s.topicContent;
  }

  /**
   * A search cannot be started twice: once started the button is disabled,
   * and when the search settles it is enabled again exactly when it is
   * still on screen.
   */
  lemma SearchNotRetriggered(s: State, result: Result<string>)
    ensures !WebSearchEnabled(SearchStarted(s))
    ensures var t := SearchFinished(SearchStarted(s), result);
      WebSearchEnabled(t) <==> WebSearchOffered(t)
  {
  }

  /** After a search whose backend call succeeded, the search is not offered again. */
  lemma SearchNotReoffered(s: State, apiKey: string, backend: Backend)
    requires apiKey != ""
    requires RetryOperation(backend, DefaultRetries, DefaultDelay).outcome.Success?
    ensures !WebSearchOffered(SearchFinished(SearchStarted(s), WebLinksReply(apiKey, backend)))
  {
    var links := WebLinksReply(apiKey, backend).value;
    ContainsConcat(s.topicContent, links, WebResourcesMarker);
  }

  /** The note flag is set exactly by the sentinel; the diagram changes only to a real result. */
  lemma DiagramOutcome(s: State, result: Result<string>)
    ensures !DiagramStarted(s).noDiagramAvailable
    ensures var t := DiagramFinished(DiagramStarted(s), result);
      && !t.isGeneratingDiagram
      && (t.noDiagramAvailable <==> result == Ok(NoDiagram))
      && (result.Ok? && result.value != NoDiagram ==> t.diagramContent == Some(result.value))
      && (result.Err? || result == Ok(NoDiagram) ==> t.diagramContent == s.diagramContent)
      && t.topicContent == s.topicContent
  {
  }

  /**
   * A diagram request cannot be started twice: once started the button is
   * disabled, and when the request settles it is enabled again exactly when
   * it is still on screen.
   */
  lemma DiagramNotRetriggered(s: State, result: Result<string>)
    ensures !DiagramEnabled(DiagramStarted(s))
    ensures var t := DiagramFinished(DiagramStarted(s), result);
      DiagramEnabled(t) <==> DiagramButtonShown(t)
  {
  }

  /** A settled diagram request hides the flowchart button unless it produced an empty diagram. */
  lemma DiagramButtonHidden(s: State, d: string)
    requires d != ""
    ensures !DiagramButtonShown(DiagramFinished(DiagramStarted(s), Ok(d)))
  {
  }

  /** The timer keeps the index in range and moves it only while something is loading. */
  lemma RotationInRange(s: State)
    requires ValidState(s)
    ensures ValidState(Rotated(s))
    ensures !s.isAnalyzing && !s.isGeneratingContent ==> Rotated(s) == s
    ensures s.isAnalyzing || s.isGeneratingContent ==> Rotated(s).loadingMsgIndex != s.loadingMsgIndex
  {
  }

  /** One tick while loading moves only the index, to the next message or back to the first. */
  lemma RotateStep(s: State)
    requires ValidState(s) && (s.isAnalyzing || s.isGeneratingContent)
    ensures Rotated(s) == s.(loadingMsgIndex := if s.loadingMsgIndex == 4 then 0 else s.loadingMsgIndex + 1)
  {
    assert |LoadingMessages| == 5;
  }

  /** Five ticks while loading bring the message back round. */
  lemma RotationCycles(s: State)
    requires ValidState(s) && (s.isAnalyzing || s.isGeneratingContent)
    ensures Rotated(Rotated(Rotated(Rotated(Rotated(s))))) == s
  {
    var s1 := Rotated(s);
    RotateStep(s);
    var s2 := Rotated(s1);
    RotateStep(s1);
    var s3 := Rotated(s2);
    RotateStep(s2);
    var s4 := Rotated(s3);
    RotateStep(s3);
    RotateStep(s4);
  }

  // ===== The page =====

  class Page {
    var view: ViewState
    var files: seq<UploadedFile>
    var topics: seq<Topic>
    var isAnalyzing: bool
    var selectedTopicId: Option<string>
    var topicContent: string
    var isGeneratingContent: bool
    var isSearchingWeb: bool
    var diagramContent: Option<string>
    var isGeneratingDiagram: bool
    var noDiagramAvailable: bool
    var loadingMsgIndex: nat
    var copyFeedback: bool

    function Snapshot(): State
      reads this
    {
      State(view, files, topics, isAnalyzing, selectedTopicId, topicContent, isGeneratingContent,
        isSearchingWeb, diagramContent, isGeneratingDiagram, noDiagramAvailable, loadingMsgIndex, copyFeedback)
    }

    ghost predicate Valid()
      reads this
    {
      ValidState(Snapshot())
    }

    constructor()
      ensures Snapshot() == Initial && Valid()
    {
      view := Upload;
      files := [];
      topics := [];
      isAnalyzing := false;
      selectedTopicId := None;
      topicContent := "";
      isGeneratingContent := false;
      isSearchingWeb := false;
      diagramContent := None;
      isGeneratingDiagram := false;
      noDiagramAvailable := false;
      loadingMsgIndex := 0;
      copyFeedback := false;
    }

    method HandleUpload(newFiles: seq<UploadedFile>)
      requires Valid()
      modifies this
      ensures Valid() && Snapshot() == Uploaded(old(Snapshot()), newFiles)
    {
      files := files + newFiles;
    }

    method HandleRemoveFile(fileId: string)
      requires Valid()
      modifies this
      ensures Valid() && Snapshot() == Removed(old(Snapshot()), fileId)
    {
      files := WithoutId(files, fileId);
    }

    method BeginAnalyze()
      requires Valid()
      modifies this
      ensures Valid() && Snapshot() == AnalyzeStarted(old(Snapshot()))
    {
      isAnalyzing := true;
    }

    method CompleteAnalyze(result: Result<seq<Topic>>)
      requires Valid()
      modifies this
      ensures Valid() && Snapshot() == AnalyzeFinished(old(Snapshot()), result)
    {
      if result.Ok? {
        topics := result.value;
        view := Dashboard;
      }
      isAnalyzing := false;
    }

    /** `onAnalyzeClick`: nothing happens without main notes; otherwise only they are sent, in upload order. */
    method OnAnalyzeClick(apiKey: string, backend: Backend, parse: string -> Option<seq<Topic>>)
      returns (request: Option<seq<Part>>)
      requires Valid()
      modifies this
      ensures Valid()
      ensures !HasMainFile(old(files)) ==> request == None && Snapshot() == old(Snapshot())
      ensures HasMainFile(old(files)) ==>
        Snapshot() == AnalyzeFinished(AnalyzeStarted(old(Snapshot())), ExtractionReply(apiKey, backend, parse))
      ensures HasMainFile(old(files)) && apiKey != "" ==>
        request.Some? && ExtractionLayout(request.value, OfType(old(files), MAIN))
    {
      var mainFiles := OfType(files, MAIN);
      HasMainFileIff(files);
      if |mainFiles| == 0 {
        return None;
      }
      BeginAnalyze();
      var result;
      result, request := ExtractChaptersFromNotes(apiKey, mainFiles, backend, parse);
      CompleteAnalyze(result);
    }

    method BeginTopicSelect(topic: Topic)
      requires Valid()
      modifies this
      ensures Valid() && Snapshot() == TopicOpened(old(Snapshot()), topic)
    {
      selectedTopicId := Some(topic.id);
      view := Study;
      topicContent := "";
      diagramContent := None;
      noDiagramAvailable := false;
      isGeneratingContent := true;
    }

    method CompleteTopicSelect(result: Result<string>)
      requires Valid()
      modifies this
      ensures Valid() && Snapshot() == TopicLoaded(old(Snapshot()), result)
    {
      match result {
        case Ok(markdown) =>
          topicContent := markdown;
        case Err(_) =>
          topicContent := LoadErrorMessage;
      }
      isGeneratingContent := false;
    }

    /** `onTopicSelect`: the synthesis request carries every uploaded file. */
    method OnTopicSelect(topic: Topic, apiKey: string, backend: Backend) returns (request: Option<seq<Part>>)
      requires Valid()
      modifies this
      ensures Valid()
      ensures Snapshot() == TopicLoaded(TopicOpened(old(Snapshot()), topic), SynthesisReply(apiKey, backend))
      ensures apiKey != "" ==> request == Some(SynthesisParts(topic.name, old(files)))
    {
      BeginTopicSelect(topic);
      var result;
      result, request := SynthesizeTopic(apiKey, topic.name, files, backend);
      CompleteTopicSelect(result);
    }

    method BeginWebSearch()
      requires Valid()
      modifies this
      ensures Valid() && Snapshot() == SearchStarted(old(Snapshot()))
    {
      isSearchingWeb := true;
    }

    method CompleteWebSearch(result: Result<string>)
      requires Valid()
      modifies this
      ensures Valid() && Snapshot() == SearchFinished(old(Snapshot()), result)
    {
      if result.Ok? {
        topicContent := topicContent + result.value;
      }
      isSearchingWeb := false;
    }

    /** `handleWebSearch`: a no-op without a selected, known topic. */
    method HandleWebSearch(apiKey: string, backend: Backend) returns (request: Option<seq<Part>>)
      requires Valid()
      modifies this
      ensures Valid()
      ensures SelectedTopic(old(Snapshot())).None? ==> request == None && Snapshot() == old(Snapshot())
      ensures SelectedTopic(old(Snapshot())).Some? ==>
        Snapshot() == SearchFinished(SearchStarted(old(Snapshot())), WebLinksReply(apiKey, backend))
      ensures SelectedTopic(old(Snapshot())).Some? && apiKey != "" ==>
        request == Some([Instructions(WebLinksPrompt(SelectedTopic(old(Snapshot())).value.name))])
    {
      var topic := SelectedTopic(Snapshot());
      if topic.None? {
        return None;
      }
      BeginWebSearch();
      var result;
      result, request := FindWebLinks(apiKey, topic.value.name, backend);
      CompleteWebSearch(result);
    }

    method BeginDiagram()
      requires Valid()
      modifies this
      ensures Valid() && Snapshot() == DiagramStarted(old(Snapshot()))
    {
      isGeneratingDiagram := true;
      noDiagramAvailable := false;
    }

    method CompleteDiagram(result: Result<string>)
      requires Valid()
      modifies this
      ensures Valid() && Snapshot() == DiagramFinished(old(Snapshot()), result)
    {
      if result.Ok? {
        if result.value == NoDiagram {
          noDiagramAvailable := true;
        } else {
          diagramContent := Some(result.value);
        }
      }
      isGeneratingDiagram := false;
    }

    /** `handleDiagramGeneration`: a no-op without a selected, known topic. */
    method HandleDiagramGeneration(apiKey: string, backend: Backend) returns (request: Option<seq<Part>>)
      requires Valid()
      modifies this
      ensures Valid()
      ensures SelectedTopic(old(Snapshot())).None? ==> request == None && Snapshot() == old(Snapshot())
      ensures SelectedTopic(old(Snapshot())).Some? ==>
        Snapshot() == DiagramFinished(DiagramStarted(old(Snapshot())), DiagramReply(apiKey, backend))
      ensures SelectedTopic(old(Snapshot())).Some? && apiKey != "" ==>
        request == Some([Instructions(DiagramPrompt(SelectedTopic(old(Snapshot())).value.name))])
    {
      var topic := SelectedTopic(Snapshot());
      if topic.None? {
        return None;
      }
      BeginDiagram();
      var result;
      result, request := GenerateDiagram(apiKey, topic.value.name, backend);
      CompleteDiagram(result);
    }

    /** `handleCopyContent`: hands the guide to the clipboard verbatim and shows the feedback. */
    method HandleCopyContent() returns (copied: string)
      requires Valid()
      modifies this
      ensures Valid()
      ensures copied == old(topicContent)
      ensures Snapshot() == old(Snapshot()).(copyFeedback := true)
    {
      copied := topicContent;
      copyFeedback := true;
    }

    /** The feedback timer firing. */
    method CopyFeedbackElapsed()
      requires Valid()
      modifies this
      ensures Valid() && Snapshot() == old(Snapshot()).(copyFeedback := false)
    {
      copyFeedback := false;
    }

    /** The loading-message timer firing. */
    method RotateLoadingMessage()
      requires Valid()
      modifies this
      ensures Valid() && Snapshot() == Rotated(old(Snapshot()))
    {
      if isAnalyzing || isGeneratingContent {
        loadingMsgIndex := (loadingMsgIndex + 1) % |LoadingMessages|;
      }
    }

    /** The dashboard's back button: only the view changes. */
    method BackToUpload()
      requires Valid()
      modifies this
      ensures Valid() && Snapshot() == old(Snapshot()).(view := Upload)
    {
      view := Upload;
    }

    /** The guide's back-to-topics button: only the selection is cleared. */
    method BackToTopics()
      requires Valid()
      modifies this
      ensures Valid() && Snapshot() == old(Snapshot()).(selectedTopicId := None)
    {
      selectedTopicId := None;
    }
  }
}

=== FILE: strings.dfy ===
/**
 * The JavaScript string operations the core relies on (`startsWith`,
 * `endsWith`, `includes`, `replace`, `trim`, `slice`), defined on `string`.
 */
module Strings {
  import opened Types

  predicate StartsWith(s: string, p: string)
  {
    |p| <= |s| && s[..|p|] == p
  }

  predicate EndsWith(s: string, p: string)
  {
    |p| <= |s| && s[|s| - |p|..] == p
  }

  /** `s.includes(p)`. */
  predicate Contains(s: string, p: string)
  {
    exists i :: 0 <= i <= |s| && StartsWith(s[i..], p)
  }

  /** The ECMAScript line terminators: LF, CR, LS and PS. */
  predicate IsLineTerminator(c: char)
  {
    c == '\n' || c == '\r' || c == '\U{2028}' || c == '\U{2029}'
  }

  /** The characters `String.prototype.trim` strips: white space and line terminators. */
  predicate IsJsSpace(c: char)
  {
    IsLineTerminator(c) || c == '\t' || c == ' ' ||
    c as int == 0x0B || c as int == 0x0C || c as int == 0xA0 || c as int == 0x1680 ||
    (0x2000 <= c as int <= 0x200A) || c as int == 0x202F || c as int == 0x205F ||
    c as int == 0x3000 || c as int == 0xFEFF
  }

  /** The index of the first occurrence of `p` in `s` at or after `k` (`indexOf`). */
  function IndexOfFrom(s: string, p: string, k: nat): (r: Option<nat>)
    requires k <= |s|
    ensures r.Some? ==> k <= r.value <= |s| && StartsWith(s[r.value..], p)
    ensures r.Some? ==> forall j :: k <= j < r.value ==> !StartsWith(s[j..], p)
    ensures r.None? ==> forall j :: k <= j <= |s| ==> !StartsWith(s[j..], p)
    decreases |s| - k
  {
    if StartsWith(s[k..], p) then Some(k)
    else if k == |s| then None
    else IndexOfFrom(s, p, k + 1)
  }

  /** `s.replace(p, '')` for a string pattern: removes the first occurrence only. */
  function ReplaceFirst(s: string, p: string): (r: string)
    ensures !Contains(s, p) ==> r == s
    ensures Contains(s, p) ==> |r| == |s| - |p|
    ensures Contains(s, p) ==> exists i :: 0 <= i <= |s| - |p| && s[i..i + |p|] == p && r == s[..i] + s[i + |p|..]
  {
    match IndexOfFrom(s, p, 0)
    case None => s
    case Some(i) => s[..i] + s[i + |p|..]
  }

  /** When `s` starts with `p`, replacing the first `p` removes exactly that prefix. */
  lemma ReplaceFirstPrefix(s: string, p: string)
    requires StartsWith(s, p)
    ensures ReplaceFirst(s, p) == s[|p|..]
  {
    assert s[0..] == s;
  }

  /** `s.replace(/p/g, '')` for a literal pattern: leftmost, non-overlapping removal. */
  function RemoveAll(s: string, p: string): (r: string)
    requires |p| > 0
    ensures |r| <= |s|
    decreases |s|
  {
    if |s| == 0 then ""
    else if StartsWith(s, p) then RemoveAll(s[|p|..], p)
    else [s[0]] + RemoveAll(s[1..], p)
  }

  /** Removal only deletes: every character left was in the input, as often at most. */
  lemma {:induction false} RemoveAllOnlyDeletes(s: string, p: string)
    requires |p| > 0
    ensures multiset(RemoveAll(s, p)) <= multiset(s)
    decreases |s|
  {
    if |s| > 0 {
      if StartsWith(s, p) {
        RemoveAllOnlyDeletes(s[|p|..], p);
        DeletedBelow(s, |p|, RemoveAll(s[|p|..], p));
      } else {
        RemoveAllOnlyDeletes(s[1..], p);
        DeletedBelow(s, 1, RemoveAll(s[1..], p));
        assert RemoveAll(s, p) == s[..1] + RemoveAll(s[1..], p);
      }
    }
  }

  /** Proof step: what is kept of a suffix, with or without the prefix before it, is within the whole. */
  lemma DeletedBelow(s: string, k: nat, r: string)
    requires k <= |s| && multiset(r) <= multiset(s[k..])
    ensures multiset(r) <= multiset(s)
    ensures multiset(s[..k] + r) <= multiset(s)
  {
    assert s == s[..k] + s[k..];
    assert multiset(s) == multiset(s[..k]) + multiset(s[k..]);
  }

  /** Drops leading white space. */
  function TrimStart(s: string): (r: string)
    ensures |r| <= |s| && r == s[|s| - |r|..]
    ensures |r| > 0 ==> !IsJsSpace(r[0])
    ensures forall i :: 0 <= i < |s| - |r| ==> IsJsSpace(s[i])
    decreases |s|
  {
    if |s| > 0 && IsJsSpace(s[0]) then TrimStart(s[1..]) else s
  }

  /** Drops trailing white space. */
  function TrimEnd(s: string): (r: string)
    ensures |r| <= |s| && r == s[..|r|]
    ensures |r| > 0 ==> !IsJsSpace(r[|r| - 1])
    ensures forall i :: |r| <= i < |s| ==> IsJsSpace(s[i])
    decreases |s|
  {
    if |s| > 0 && IsJsSpace(s[|s| - 1]) then TrimEnd(s[..|s| - 1]) else s
  }

  /** `s.trim()`. */
  function Trim(s: string): string
  {
    TrimEnd(TrimStart(s))
  }

  /** The trimmed string is a slice of the original that neither starts nor ends with white space. */
  lemma TrimIsInnerSlice(s: string) returns (a: nat)
    ensures a + |Trim(s)| <= |s| && Trim(s) == s[a..a + |Trim(s)|]
    ensures |Trim(s)| > 0 ==> !IsJsSpace(Trim(s)[0]) && !IsJsSpace(Trim(s)[|Trim(s)| - 1])
  {
    var t := TrimStart(s);
    a := |s| - |t|;
    assert Trim(s) == t[..|Trim(s)|] == s[a..a + |Trim(s)|];
  }

  /** JavaScript's `s.slice(k, -k)` for `k > 0`: empty when the bounds cross. */
  function SliceInner(s: string, k: nat): (r: string)
    requires k > 0
    ensures |s| >= 2 * k ==> r == s[k..|s| - k]
    ensures |s| < 2 * k ==> r == ""
  {
    var from := if k < |s| then k else |s|;
    var to := if |s| - k > 0 then |s| - k else 0;
    if to <= from then "" else s[from..to]
  }

  /** Decimal rendering of a natural number, as in a template literal. */
  function NatToString(n: nat): (r: string)
    ensures |r| > 0
    ensures forall i :: 0 <= i < |r| ==> '0' <= r[i] <= '9'
  {
    if n < 10 then [DigitChar(n)] else NatToString(n / 10) + [DigitChar(n % 10)]
  }

  function DigitChar(d: nat): (c: char)
    requires d < 10
    ensures '0' <= c <= '9'
    ensures c as int - '0' as int == d
  {
    ('0' as int + d) as char
  }

  /** The number a string of decimal digits denotes, most significant digit first. */
  function DigitsValue(s: string): nat
    requires forall i :: 0 <= i < |s| ==> '0' <= s[i] <= '9'
  {
    if |s| == 0 then 0 else 10 * DigitsValue(s[..|s| - 1]) + (s[|s| - 1] as int - '0' as int)
  }

  /** The rendering denotes the number itself, without a leading zero. */
  lemma {:induction false} NatToStringValue(n: nat)
    ensures DigitsValue(NatToString(n)) == n
    ensures n > 0 ==> NatToString(n)[0] != '0'
  {
    if n >= 10 {
      NatToStringValue(n / 10);
      var r := NatToString(n);
      assert r[..|r| - 1] == NatToString(n / 10);
      assert r[0] == NatToString(n / 10)[0];
    }
  }

  // ----- slices -----

  /** A slice of a slice is a slice of the original. */
  lemma SliceOfSlice(s: string, a: nat, b: nat, c: nat, d: nat)
    requires a <= b <= |s| && c <= d <= b - a
    ensures s[a..b][c..d] == s[a + c..a + d]
  {
    forall k | 0 <= k < d - c
      ensures s[a..b][c..d][k] == s[a + c..a + d][k]
    {
      assert s[a..b][c..d][k] == s[a + c + k];
    }
  }

  /** A suffix cut at two points. */
  lemma SuffixSplit(s: string, p: nat, q: nat, e: nat)
    requires p <= q <= e <= |s|
    ensures s[p..] == s[p..q] + (s[q..e] + s[e..])
  {
    assert s[q..] == s[q..e] + s[e..];
    assert s[p..] == s[p..q] + s[q..];
  }

  // ----- facts about Contains -----

  /** An occurrence inside a slice is an occurrence in the whole string. */
  lemma ContainsSlice(s: string, a: nat, b: nat, p: string)
    requires a <= b <= |s|
    requires Contains(s[a..b], p)
    ensures Contains(s, p)
  {
    var i :| 0 <= i <= b - a && StartsWith(s[a..b][i..], p);
    assert s[a..b][i..][..|p|] == s[a + i..a + i + |p|];
    assert s[a + i..][..|p|] == s[a + i..a + i + |p|];
  }

  /** An occurrence in either part is an occurrence in the concatenation. */
  lemma ContainsConcat(x: string, y: string, p: string)
    requires Contains(x, p) || Contains(y, p)
    ensures Contains(x + y, p)
  {
    if Contains(x, p) {
      assert x == (x + y)[0..|x|];
      ContainsSlice(x + y, 0, |x|, p);
    } else {
      assert y == (x + y)[|x|..|x + y|];
      ContainsSlice(x + y, |x|, |x + y|, p);
    }
  }

  /** A string that neither starts with `p` nor holds it after its first character does not hold it. */
  lemma NotContainsCons(c: char, r: string, p: string)
    requires !StartsWith([c] + r, p) && !Contains(r, p)
    ensures !Contains([c] + r, p)
  {
    forall i | 1 <= i <= |[c] + r|
      ensures !StartsWith(([c] + r)[i..], p)
    {
      assert ([c] + r)[i..] == r[i - 1..];
    }
  }

  // ----- removing code fences -----

  const Fence: string := "```"

  /** The number of backticks `s` starts with. */
  function LeadingTicks(s: string): (n: nat)
    ensures n <= |s|
  {
    if |s| > 0 && s[0] == '`' then 1 + LeadingTicks(s[1..]) else 0
  }

  /** No three backticks in a row. */
  predicate FenceFree(x: string)
  {
    forall i :: 0 <= i < |x| - 2 ==> !(x[i] == '`' && x[i + 1] == '`' && x[i + 2] == '`')
  }

  lemma FenceFreeNoFence(x: string)
    requires FenceFree(x)
    ensures !Contains(x, Fence)
  {
    forall i | 0 <= i <= |x|
      ensures !StartsWith(x[i..], Fence)
    {
      if i + 3 <= |x| {
        assert !(x[i] == '`' && x[i + 1] == '`' && x[i + 2] == '`');
        assert x[i..][..3] == [x[i], x[i + 1], x[i + 2]];
      }
    }
  }

  /** Three backticks in front are at least three leading backticks, and conversely. */
  lemma FenceTicks(s: string)
    ensures |s| >= 3 && s[0] == '`' && s[1] == '`' && s[2] == '`' ==> LeadingTicks(s) >= 3
    ensures LeadingTicks(s) >= 3 ==> StartsWith(s, Fence)
  {
    if |s| >= 3 && s[0] == '`' && s[1] == '`' && s[2] == '`' {
      var s1 := s[1..];
      var s2 := s1[1..];
      assert s1[0] == s[1] && s2[0] == s[2];
      assert LeadingTicks(s2) >= 1;
      assert LeadingTicks(s1) >= 2;
    }
    if LeadingTicks(s) >= 3 {
      var s1 := s[1..];
      var s2 := s1[1..];
      assert s[0] == '`' && LeadingTicks(s1) >= 2;
      assert s1[0] == '`' && LeadingTicks(s2) >= 1;
      assert s2[0] == '`';
      assert s[..3] == [s[0], s1[0], s2[0]];
    }
  }

  lemma LeadingTicksCons(c: char, r: string)
    ensures LeadingTicks([c] + r) == if c == '`' then 1 + LeadingTicks(r) else 0
  {
    assert ([c] + r)[1..] == r;
  }

  /** A character in front of a fence-free string leaves it fence-free when fewer than three backticks lead. */
  lemma FenceFreeCons(c: char, r: string)
    requires FenceFree(r)
    requires LeadingTicks([c] + r) < 3
    ensures FenceFree([c] + r)
  {
    var x := [c] + r;
    FenceTicks(x);
    forall i | 0 <= i < |x| - 2
      ensures !(x[i] == '`' && x[i + 1] == '`' && x[i + 2] == '`')
    {
      if i > 0 {
        assert x[i] == r[i - 1] && x[i + 1] == r[i] && x[i + 2] == r[i + 1];
      }
    }
  }

  /** Proof step: residues modulo 3, kept out of the larger proofs. */
  lemma SmallMod(n: nat)
    requires n < 3
    ensures n % 3 == n
  {
  }

  /** Proof step: adding 3 keeps the residue modulo 3. */
  lemma ShiftMod(n: nat)
    ensures (n + 3) % 3 == n % 3
  {
  }

  lemma FenceAtFront(s: string)
    requires StartsWith(s, Fence)
    ensures RemoveAll(s, Fence) == RemoveAll(s[3..], Fence)
    ensures LeadingTicks(s) == 3 + LeadingTicks(s[3..])
  {
    var s1 := s[1..];
    var s2 := s1[1..];
    assert s2[1..] == s[3..];
    assert s[0] == '`' && s1[0] == '`' && s2[0] == '`';
    assert LeadingTicks(s2) == 1 + LeadingTicks(s[3..]);
    assert LeadingTicks(s1) == 1 + LeadingTicks(s2);
  }

  /** A fence at the front is dropped along with three of the leading backticks. */
  lemma FenceStep(s: string)
    requires StartsWith(s, Fence)
    requires LeadingTicks(RemoveAll(s[3..], Fence)) == LeadingTicks(s[3..]) % 3
    requires FenceFree(RemoveAll(s[3..], Fence))
    ensures LeadingTicks(RemoveAll(s, Fence)) == LeadingTicks(s) % 3
    ensures FenceFree(RemoveAll(s, Fence))
  {
    FenceAtFront(s);
    ShiftMod(LeadingTicks(s[3..]));
  }

  /** A first character that does not begin a fence is kept, and at most two backticks lead. */
  lemma KeepStep(s: string)
    requires |s| > 0 && !StartsWith(s, Fence)
    requires LeadingTicks(RemoveAll(s[1..], Fence)) == LeadingTicks(s[1..]) % 3
    requires FenceFree(RemoveAll(s[1..], Fence))
    ensures LeadingTicks(RemoveAll(s, Fence)) == LeadingTicks(s) % 3
    ensures FenceFree(RemoveAll(s, Fence))
  {
    var rest := RemoveAll(s[1..], Fence);
    var n := LeadingTicks(s);
    assert RemoveAll(s, Fence) == [s[0]] + rest;
    LeadingTicksCons(s[0], rest);
    FenceTicks(s);
    assert n < 3;
    SmallMod(n);
    if s[0] == '`' {
      assert n == 1 + LeadingTicks(s[1..]);
      SmallMod(LeadingTicks(s[1..]));
    }
    FenceFreeCons(s[0], rest);
  }

  /**
   * Removing every fence leaves no fence: each run of n backticks keeps
   * n % 3 of them, and the characters between runs are never removed.
   */
  lemma {:induction false} RemoveFencesLeavesNone(s: string)
    ensures LeadingTicks(RemoveAll(s, Fence)) == LeadingTicks(s) % 3
    ensures !Contains(RemoveAll(s, Fence), Fence)
  {
    RemoveFencesFenceFree(s);
    FenceFreeNoFence(RemoveAll(s, Fence));
  }

  lemma {:induction false} RemoveFencesFenceFree(s: string)
    ensures LeadingTicks(RemoveAll(s, Fence)) == LeadingTicks(s) % 3
    ensures FenceFree(RemoveAll(s, Fence))
    decreases |s|
  {
    if |s| == 0 {
      assert RemoveAll(s, Fence) == "";
    } else if StartsWith(s, Fence) {
      RemoveFencesFenceFree(s[3..]);
      FenceStep(s);
    } else {
      RemoveFencesFenceFree(s[1..]);
      KeepStep(s);
    }
  }

  /** A string that has no fence keeps none after trimming. */
  lemma TrimKeepsNoFence(s: string)
    requires !Contains(s, Fence)
    ensures !Contains(Trim(s), Fence)
  {
    var a := TrimIsInnerSlice(s);
    if Contains(Trim(s), Fence) {
      ContainsSlice(s, a, a + |Trim(s)|, Fence);
    }
  }
}

=== FILE: types.dfy ===
/**
 * The data declarations of the study companion: document categories,
 * uploaded files, topics, views, and the fixed configuration tables.
 */
module Types {

  datatype Option<+T> = None | Some(value: T)

  /** A thrown JavaScript `Error`, reduced to its message. */
  datatype Result<+T> = Ok(value: T) | Err(message: string)

  /** The four document categories a file can be uploaded under. */
  datatype DocType = PYQ | MAIN | NCERT | CURRENT

  /** The enum's string value, as shown to the user. */
  function DocTypeValue(t: DocType): string
  {
    match t
    case PYQ => "Previous Year Questions (Mains/Prelims)"
    case MAIN => "Main Topic Notes (e.g., Mrunal)"
    case NCERT => "Basic Concepts (NCERT)"
    case CURRENT => "Current Affairs"
  }

  /** A file held by the session; `base64` is its content without the data-URL prefix. */
  datatype UploadedFile = UploadedFile(
    id: string,
    docType: DocType,
    name: string,
    base64: string,
    mimeType: string)

  /** A chapter as returned by chapter extraction (no field is validated). */
  datatype Topic = Topic(
    id: string,
    name: string,
    relevance: string,
    complexity: string,
    subtopics: seq<string>)

  datatype ViewState = Upload | Dashboard | Study

  /** One row of the upload-card configuration table. */
  datatype DocTypeConfig = DocTypeConfig(docType: DocType, required: bool)

  /** The upload cards, in display order; only the main notes are required. */
  const DocTypesConfig: seq<DocTypeConfig> := [
    DocTypeConfig(MAIN, true),
    DocTypeConfig(PYQ, false),
    DocTypeConfig(NCERT, false),
    DocTypeConfig(CURRENT, false)
  ]

  /** The messages rotated while a long request is pending. */
  const LoadingMessages: seq<string> := [
    "Scanning Main Notes for Chapters...",
    "Identifying high-yield linkages...",
    "Checking for relevant PYQs...",
    "Filtering UPSC traps...",
    "Synthesizing reading strategy..."
  ]

  /** The files of `fs` whose category is `t`, in their original order (`Array.filter`). */
  function OfType(fs: seq<UploadedFile>, t: DocType): (r: seq<UploadedFile>)
    ensures |r| <= |fs|
    ensures forall f :: f in r <==> f in fs && f.docType == t
  {
    if |fs| == 0 then []
    else (if fs[0].docType == t then [fs[0]] else []) + OfType(fs[1..], t)
  }

  /** Filtering commutes with concatenation: the relative order of kept files is unchanged. */
  lemma {:induction false} OfTypeConcat(a: seq<UploadedFile>, b: seq<UploadedFile>, t: DocType)
    ensures OfType(a + b, t) == OfType(a, t) + OfType(b, t)
  {
    if |a| > 0 {
      assert (a + b)[1..] == a[1..] + b;
      OfTypeConcat(a[1..], b, t);
    } else {
      assert a + b == b;
    }
  }

  /** A category occurs among the files iff filtering by it leaves something. */
  lemma {:induction false} OfTypeEmpty(fs: seq<UploadedFile>, t: DocType)
    ensures |OfType(fs, t)| == 0 <==> forall i :: 0 <= i < |fs| ==> fs[i].docType != t
  {
    if |fs| > 0 {
      OfTypeEmpty(fs[1..], t);
      assert forall i :: 1 <= i < |fs| ==> fs[i] == fs[1..][i - 1];
    }
  }
}
